=== FILE: README.md ===
# Employee Management System — a Dafny model

The system is an employee directory. It has two parts:

- An ASP.NET Core back end. It stores employee records and serves create, read, update and delete actions to an administrator. It also issues a JSON Web Token for one fixed administrator account and renders a PDF report of all employees.
- A React front end. It validates the employee form and normalises the form data before sending it. It turns server validation responses into error messages, pages through the directory, and keeps the login session in browser storage.

This project models the logic of those parts in Dafny and proves properties about it.

Layout, one module per source file plus three support modules:

| file | module | models |
|---|---|---|
| `wrappers.dfy` | `Wrappers` | `Option` and `Result` |
| `text.dfy` | `Text` | JavaScript `trim`, ASCII lower-casing, `join`, decimal numerals |
| `calendar.dfy` | `Calendar` | valid calendar timestamps, `yyyy-MM-dd` and the report's stamp formats, date parsing |
| `employee.dfy` | `Employees` | the `Employee` entity, its defaults and its data annotations |
| `employee_store.dfy` | `EmployeeStore` | the employees controller: a table (rows, store order, next identity value), the meaning of each action as a function, and the class `EmployeesController` proved against them |
| `reports.dfy` | `Reports` | the PDF report: title, header, the cell sequence built by a loop, the file name |
| `auth.dfy` | `Auth` | the login endpoint and the token's claims |
| `employee_schema.dfy` | `EmployeeSchema` | the zod form schema |
| `employee_api.dfy` | `EmployeeApi` | `formatEmployeeData`, the required-field check, the update payload, the error-message text |
| `directory_page.dfy` | `DirectoryPage` | pagination and the class `Pager` holding the page state |
| `auth_context.dfy` | `AuthContext` | the session functions and the class `AuthProvider` over browser storage |

Modelling conventions:

- Salary is a whole number of cents, standing for the `decimal(18, 2)` and two-decimal JavaScript number of the source.
- Strings are sequences of characters.
- Clocks, the GUID nonce, the currency formatter, the e-mail patterns, the JavaScript `Date` parser, and `JSON.parse`/`JSON.stringify` are parameters.

## Model

| member | source | states |
|---|---|---|
| Employees.NewEmployee | backEnd/EMS.api/Models/Employee.cs:9-47 | A freshly bound record has empty strings, salary 0, status "Active" and the current UTC time as joining date |
| Employees.AnnotationsImplyRequiredFields | backEnd/EMS.api/Models/Employee.cs:14-47 | A record meeting every `[Required]`/`[MaxLength]`/`[EmailAddress]` annotation passes the controller's emptiness check; a blank first name passes that check but fails `[Required]` |
| Employees.DefaultRecordIsIncomplete | backEnd/EMS.api/Models/Employee.cs:14-39 | The default record fails both the annotations and the controller's required-field check |
| EmployeeStore.List | backEnd/EMS.api/Controllers/EmployeeControllers.cs:34-41 | Every stored row, once, in store order, and nothing else; ids are distinct |
| EmployeeStore.Get | backEnd/EMS.api/Controllers/EmployeeControllers.cs:48-59 | The stored row under the id, or NotFound exactly when no row has that key |
| EmployeeStore.CreateFailureMessage | backEnd/EMS.api/Controllers/EmployeeControllers.cs:92-95 | The failure message is the prefix followed by the inner exception's message, or the empty string when there is no inner exception |
| EmployeeStore.CreateFailureIgnoresOuterMessage | backEnd/EMS.api/Controllers/EmployeeControllers.cs:94 | The outer exception's message never changes the response: `+` binds tighter than `??` |
| EmployeeStore.Create | backEnd/EMS.api/Controllers/EmployeeControllers.cs:66-96 | A missing payload and an empty first name, last name or email are rejected with their messages and leave the table alone; the outcome is Created exactly when the payload is complete and the save succeeds; a complete payload the store rejects gives BadRequest with the "Failed to create employee: " message and leaves the table alone |
| EmployeeStore.Update | backEnd/EMS.api/Controllers/EmployeeControllers.cs:103-130 | "ID mismatch." when path and body ids differ; NoContent exactly when the key exists; NotFound exactly when it does not; only NoContent changes the table |
| EmployeeStore.Delete | backEnd/EMS.api/Controllers/EmployeeControllers.cs:137-150 | NoContent exactly when the key exists, otherwise NotFound with the table unchanged |
| EmployeeStore.Remove | backEnd/EMS.api/Controllers/EmployeeControllers.cs:146 | The keys of the store order without the deleted key and with nothing else lost; no duplicates are introduced |
| EmployeeStore.RemoveAbsent | backEnd/EMS.api/Controllers/EmployeeControllers.cs:146 | Removing a key that is not listed leaves the order unchanged |
| EmployeeStore.AppendThenRemove | backEnd/EMS.api/Controllers/EmployeeControllers.cs:82-146 | Appending a fresh key to a duplicate-free order and removing it again gives back the order |
| EmployeeStore.RemoveAt | backEnd/EMS.api/Controllers/EmployeeControllers.cs:146 | In a duplicate-free order, removing the key at position k cuts out exactly that entry and keeps the rest in order |
| EmployeeStore.CreateAddsOneFreshRow | backEnd/EMS.api/Controllers/EmployeeControllers.cs:82-90 | A successful create adds exactly one row, under a key that was free, keeps the other rows, and keeps the table valid |
| EmployeeStore.CreateThenGet | backEnd/EMS.api/Controllers/EmployeeControllers.cs:48-90 | Reading back the id returned by a create gives exactly the submitted record under the new id |
| EmployeeStore.CreateIgnoresPayloadId | backEnd/EMS.api/Controllers/EmployeeControllers.cs:66-90 | The identity column decides the new key; the payload's id has no effect |
| EmployeeStore.UpdateOnlyTouchesAddressedRow | backEnd/EMS.api/Controllers/EmployeeControllers.cs:103-130 | An update keeps the table valid, keeps its keys and order, changes no other row, and on NoContent stores the whole new record |
| EmployeeStore.DeleteRemovesExactlyOneRow | backEnd/EMS.api/Controllers/EmployeeControllers.cs:137-150 | A delete keeps the table valid, removes exactly the addressed key, and leaves the other rows as they were |
| EmployeeStore.DeleteTwice | backEnd/EMS.api/Controllers/EmployeeControllers.cs:137-150 | Deleting twice gives NoContent and then NotFound, and the row stays gone |
| EmployeeStore.DeleteThenGet | backEnd/EMS.api/Controllers/EmployeeControllers.cs:137-150 | After a delete, reading the id gives NotFound |
| EmployeeStore.EmployeesController.constructor | backEnd/EMS.api/Controllers/EmployeeControllers.cs:24-27 | The controller starts over an empty, valid table |
| EmployeeStore.EmployeesController.GetEmployees | backEnd/EMS.api/Controllers/EmployeeControllers.cs:34-41 | Returns OK with the listing of the current table |
| EmployeeStore.EmployeesController.GetEmployee | backEnd/EMS.api/Controllers/EmployeeControllers.cs:48-59 | Returns what `Get` gives for the current table |
| EmployeeStore.EmployeesController.PostEmployee | backEnd/EMS.api/Controllers/EmployeeControllers.cs:66-96 | The new table and the response are those of `Create` on the old table; validity is preserved |
| EmployeeStore.EmployeesController.PutEmployee | backEnd/EMS.api/Controllers/EmployeeControllers.cs:103-130 | The new table and the response are those of `Update` on the old table; validity is preserved |
| EmployeeStore.CreateThenDeleteRestores | backEnd/EMS.api/Controllers/EmployeeControllers.cs:66-150 | Deleting the row a create just stored restores the rows and order exactly; only the identity value has advanced |
| EmployeeStore.CreateReadDeleteScenario | backEnd/EMS.api/Controllers/EmployeeControllers.cs:48-150 | Create, get, delete, get, delete on the controller answer Created, the stored record, NoContent, NotFound, NotFound; the rows and their order end as they began, only the identity value advances |
| EmployeeStore.EmployeesController.DeleteEmployee | backEnd/EMS.api/Controllers/EmployeeControllers.cs:137-150 | The new table and the response are those of `Delete` on the old table; validity is preserved |
| Calendar.LongStampRoundTrip | backEnd/EMS.api/Controllers/ReportsController.cs:44 | A `yyyy-MM-dd HH:mm:ss` stamp names its time exactly: reading it back gives the same date and time |
| Calendar.CompactStampRoundTrip | backEnd/EMS.api/Controllers/ReportsController.cs:78 | A `yyyyMMddHHmmss` stamp names its time exactly: reading it back gives the same date and time |
| Reports.RowCells | backEnd/EMS.api/Controllers/ReportsController.cs:61-72 | One row has exactly as many cells as the header has columns |
| Reports.ReportTitle | backEnd/EMS.api/Controllers/ReportsController.cs:44 | The title is the fixed prefix followed by a 19-character `yyyy-MM-dd HH:mm:ss` stamp that reads back as exactly the given UTC time |
| Reports.ReportFileName | backEnd/EMS.api/Controllers/ReportsController.cs:78 | The file name is `Employees_Report_`, then 14 digits that read back as exactly the given UTC time, then `.pdf` |
| Reports.BodyCellsAppend | backEnd/EMS.api/Controllers/ReportsController.cs:61-72 | Adding one employee appends exactly that employee's row cells |
| Reports.BodyCellsLength | backEnd/EMS.api/Controllers/ReportsController.cs:61-72 | The body has nine cells per employee |
| Reports.BodyCellAt | backEnd/EMS.api/Controllers/ReportsController.cs:61-72 | Cell j of row i is cell j of the i-th employee |
| Reports.RowCellsOrder | backEnd/EMS.api/Controllers/ReportsController.cs:53-72 | The nine cells follow the header order: id, names, email, department, position, currency salary, `yyyy-MM-dd` date, status |
| Reports.IdCellRoundTrip | backEnd/EMS.api/Controllers/ReportsController.cs:63 | The id cell is a decimal numeral whose value is the key |
| Reports.GeneratePdfReport | backEnd/EMS.api/Controllers/ReportsController.cs:33-85 | The loops build exactly the header labels and the cells of every employee in order; title, MIME type and file name are as specified |
| Reports.EmptyStoreReport | backEnd/EMS.api/Controllers/ReportsController.cs:35-72 | An empty store yields no body cells |
| Reports.RowAt | backEnd/EMS.api/Controllers/ReportsController.cs:61-72 | All nine cells of body row i are the cells of the i-th employee, column by column |
| Reports.StoreReportCoversEveryRow | backEnd/EMS.api/Controllers/ReportsController.cs:35-72 | The report reads every stored row unfiltered: nine cells per row, and every cell of row i is the matching cell of the i-th stored employee in listing order |
| Auth.Claims | backEnd/EMS.api/Controllers/AuthController.cs:49-55 | Four claims of distinct types: name and subject the user, role Admin, jti the nonce |
| Auth.GenerateJwtToken | backEnd/EMS.api/Controllers/AuthController.cs:42-66 | Fails exactly when the key is absent, empty, or shorter than the 32 UTF-8 bytes HMAC-SHA256 needs, each with its own error; otherwise the configured issuer, audience and key, and expiry one hour after issue |
| Auth.Login | backEnd/EMS.api/Controllers/AuthController.cs:22-40 | A token exactly for the valid pair with a usable key; Unauthorized exactly for any other pair; otherwise the token error of `GenerateJwtToken` |
| Auth.AsciiKeyThreshold | backEnd/EMS.api/Controllers/AuthController.cs:42-65 | With an ASCII key, the valid pair logs in exactly when the key has at least 32 characters |
| Auth.OnlyAdminPairAccepted | backEnd/EMS.api/Controllers/AuthController.cs:35-40 | Only the exact, case-sensitive pair Admin / Chandra@6079# logs in |
| Auth.NoUserEnumeration | backEnd/EMS.api/Controllers/AuthController.cs:22-33 | A wrong user name and a wrong password give the same answer |
| Auth.LoginTokenContents | backEnd/EMS.api/Controllers/AuthController.cs:42-66 | A successful login's token holds exactly the four claims, the configured issuer, audience and key, and a 3600-second lifetime |
| Auth.TokensDifferOnlyInJti | backEnd/EMS.api/Controllers/AuthController.cs:49-55 | Two logins differ only in the jti claim |
| Text.Trim | frontEnd/employee-management-system-frontend/src/features/employees/validation/employeeSchema.ts:7 | `trim` keeps the slice of the input that starts after the leading whitespace; only whitespace comes before and after it, and the result has no whitespace at either end |
| EmployeeSchema.NameIssues | frontEnd/employee-management-system-frontend/src/features/employees/validation/employeeSchema.ts:4-23 | No issue exactly when the raw length is 1 to 50; at most one issue |
| EmployeeSchema.EmailIssues | frontEnd/employee-management-system-frontend/src/features/employees/validation/employeeSchema.ts:12-15 | No issue exactly when the pattern accepts and the length is at most 100 |
| EmployeeSchema.SalaryIssues | frontEnd/employee-management-system-frontend/src/features/employees/validation/employeeSchema.ts:24-26 | No issue exactly when 0 <= salary <= 1,000,000; at most one issue |
| EmployeeSchema.DateIssues | frontEnd/employee-management-system-frontend/src/features/employees/validation/employeeSchema.ts:27-28 | No issue exactly when the value has the `dddd-dd-dd` shape |
| EmployeeSchema.Parse | frontEnd/employee-management-system-frontend/src/features/employees/validation/employeeSchema.ts:3-30 | Parses exactly when every field check holds and the engine converts the date; a rejection carries exactly the issues of all failed checks, and at least one; a well-shaped date the engine refuses throws |
| EmployeeSchema.ParsedOutput | frontEnd/employee-management-system-frontend/src/features/employees/validation/employeeSchema.ts:7-29 | An accepted form becomes trimmed strings, the same salary, and the engine's ISO text of the date at `T00:00:00.000Z` |
| EmployeeSchema.FiftyCharactersAccepted | frontEnd/employee-management-system-frontend/src/features/employees/validation/employeeSchema.ts:6 | 50 characters pass despite the "less than 50" message; 51 give exactly that message |
| EmployeeSchema.WhitespaceNamePasses | frontEnd/employee-management-system-frontend/src/features/employees/validation/employeeSchema.ts:4-7 | Length is checked before trimming: a blank name passes and becomes "" |
| EmployeeSchema.SalaryBoundsInclusive | frontEnd/employee-management-system-frontend/src/features/employees/validation/employeeSchema.ts:24-26 | 0 and 1,000,000 are accepted; -0.01 and 1,000,000.01 are not |
| EmployeeSchema.IssuesInFieldOrder | frontEnd/employee-management-system-frontend/src/features/employees/validation/employeeSchema.ts:3-30 | For every input, the issues come field by field in schema order, and each names one of the seven fields |
| EmployeeSchema.ReportDateMatchesSchema | frontEnd/employee-management-system-frontend/src/features/employees/validation/employeeSchema.ts:28 | The report's date cell has the shape the form demands |
| EmployeeApi.FormatEmployeeData | frontEnd/employee-management-system-frontend/src/api/employeeApi.tsx:62-113 | A negative salary and an unparseable date give their messages; it succeeds exactly otherwise; on success each string is the trim of its input, the email the lower-cased trim, the salary is kept, and the date is converted or replaced by today |
| EmployeeApi.EmailNormalisationIdempotent | frontEnd/employee-management-system-frontend/src/api/employeeApi.tsx:91 | Trim-then-lower-case of the email is idempotent |
| EmployeeApi.FormatIsIdempotent | frontEnd/employee-management-system-frontend/src/api/employeeApi.tsx:88-96 | Formatting already formatted strings changes none of them |
| EmployeeApi.Rank | frontEnd/employee-management-system-frontend/src/api/employeeApi.tsx:122 | Each field's position in the required-field list |
| EmployeeApi.FilterMembers | frontEnd/employee-management-system-frontend/src/api/employeeApi.tsx:123 | The filter keeps exactly the falsy fields of its input |
| EmployeeApi.FilterKeepsOrder | frontEnd/employee-management-system-frontend/src/api/employeeApi.tsx:123 | The filter keeps the relative order of the fields |
| EmployeeApi.MissingFields | frontEnd/employee-management-system-frontend/src/api/employeeApi.tsx:122-123 | Exactly the falsy fields, in the fixed field order |
| EmployeeApi.PrepareCreate | frontEnd/employee-management-system-frontend/src/api/employeeApi.tsx:116-126 | Succeeds with the formatted data only when nothing is missing; a formatting error is passed on unchanged; otherwise the missing-field message names the missing fields |
| EmployeeApi.PrepareUpdate | frontEnd/employee-management-system-frontend/src/api/employeeApi.tsx:171-190 | The same checks as create, failing with the same error text; on success the payload carries the path id |
| EmployeeApi.ZeroSalaryReportedMissing | frontEnd/employee-management-system-frontend/src/api/employeeApi.tsx:72-126 | A salary of 0 passes the schema and the salary check but is reported missing, so create and update fail |
| EmployeeApi.WhitespaceNameReportedMissing | frontEnd/employee-management-system-frontend/src/api/employeeApi.tsx:89-126 | A blank first name trims to "" and is reported missing |
| EmployeeApi.MissingMessageExample | frontEnd/employee-management-system-frontend/src/api/employeeApi.tsx:122-126 | With only first name and salary falsy the message is "Required fields missing: firstName, salary" |
| EmployeeApi.BindUpdatePayload | frontEnd/employee-management-system-frontend/src/api/employeeApi.tsx:187-190 | The bound record carries the payload id and copies the names, email, department, position, salary and date from the payload; absent fields keep the defaults ("" phone, "Active" status); binding fails exactly on an invalid date |
| EmployeeApi.ClientUpdatePassesIdCheck | frontEnd/employee-management-system-frontend/src/api/employeeApi.tsx:187-200 | A client update never trips "ID mismatch."; on an existing row it stores the trimmed names, department and position, the trimmed lower-cased email and the salary, and resets status to "Active" and phone to "" |
| EmployeeApi.ErrorLines | frontEnd/employee-management-system-frontend/src/api/employeeApi.tsx:155-159 | One `field: messages` line per field, in order |
| EmployeeApi.ServerErrorMessage | frontEnd/employee-management-system-frontend/src/api/employeeApi.tsx:153-164 | An `errors` object gives the "Validation errors:" text of exactly its lines, even when empty; otherwise the title if non-empty, else the fallback |
| EmployeeApi.SingleMessageAsList | frontEnd/employee-management-system-frontend/src/api/employeeApi.tsx:157-158 | A single message is formatted like a one-element array |
| EmployeeApi.CountInErrorLine | frontEnd/employee-management-system-frontend/src/api/employeeApi.tsx:158 | A line built from break-free parts contains no line break |
| EmployeeApi.OneLinePerField | frontEnd/employee-management-system-frontend/src/api/employeeApi.tsx:155-161 | With break-free names and messages, the message has exactly one line break per field |
| DirectoryPage.SliceIndex | frontEnd/employee-management-system-frontend/src/features/employees/pages/EmployeeDirectoryPage.tsx:41-44 | `slice` clamps an index into 0 to length |
| DirectoryPage.DisplayedRowsWindow | frontEnd/employee-management-system-frontend/src/features/employees/pages/EmployeeDirectoryPage.tsx:41-44 | The shown rows are the consecutive rows from `page * rowsPerPage`, at most `rowsPerPage` of them |
| DirectoryPage.TotalPages | frontEnd/employee-management-system-frontend/src/features/employees/pages/EmployeeDirectoryPage.tsx:46 | The ceiling of n / rowsPerPage: enough pages for every row, no empty last page, zero only for an empty list |
| DirectoryPage.PagesArePrefix | frontEnd/employee-management-system-frontend/src/features/employees/pages/EmployeeDirectoryPage.tsx:41-46 | The first k pages together are the first k * rowsPerPage rows |
| DirectoryPage.PagesCoverList | frontEnd/employee-management-system-frontend/src/features/employees/pages/EmployeeDirectoryPage.tsx:41-46 | All pages together are the whole list |
| DirectoryPage.RowOnExactlyOnePage | frontEnd/employee-management-system-frontend/src/features/employees/pages/EmployeeDirectoryPage.tsx:41-46 | Each row is shown on exactly one page within range, at its offset |
| DirectoryPage.PagePastEndIsEmpty | frontEnd/employee-management-system-frontend/src/features/employees/pages/EmployeeDirectoryPage.tsx:41-46 | A page at or past the page count shows no rows |
| DirectoryPage.ButtonsKeepPageInRange | frontEnd/employee-management-system-frontend/src/features/employees/pages/EmployeeDirectoryPage.tsx:81-99 | An enabled Previous or Next click keeps the page in range |
| DirectoryPage.NextDisabledExactlyBeforeEmptyPage | frontEnd/employee-management-system-frontend/src/features/employees/pages/EmployeeDirectoryPage.tsx:41-99 | Next is disabled exactly when the following page would show no rows |
| DirectoryPage.EmptyDirectoryButtons | frontEnd/employee-management-system-frontend/src/features/employees/pages/EmployeeDirectoryPage.tsx:81-99 | An empty directory disables both buttons ("Page 1 of 0") |
| DirectoryPage.Pager.constructor | frontEnd/employee-management-system-frontend/src/features/employees/pages/EmployeeDirectoryPage.tsx:7-8 | Page 0 with 10 rows per page |
| DirectoryPage.Pager.ChangeRowsPerPage | frontEnd/employee-management-system-frontend/src/features/employees/pages/EmployeeDirectoryPage.tsx:14-17 | The new size, and back to page 0 |
| DirectoryPage.Pager.ClickPrevious | frontEnd/employee-management-system-frontend/src/features/employees/pages/EmployeeDirectoryPage.tsx:81-87 | Goes back one page unless disabled; the page stays in range |
| DirectoryPage.Pager.ClickNext | frontEnd/employee-management-system-frontend/src/features/employees/pages/EmployeeDirectoryPage.tsx:93-99 | Goes on one page unless disabled; the page stays in range |
| DirectoryPage.Pager.Displayed | frontEnd/employee-management-system-frontend/src/features/employees/pages/EmployeeDirectoryPage.tsx:41-44 | Exactly the list slice from min(page * rowsPerPage, n) to min(page * rowsPerPage + rowsPerPage, n): at most rowsPerPage rows, row k the list row at `page * rowsPerPage + k` |
| AuthContext.Loaded | frontEnd/employee-management-system-frontend/src/context/AuthContext.tsx:23-41 | Authenticated exactly when both stored entries are non-empty and the user parses; then the parsed user (or none for `null`) is restored and storage kept; a parse error clears both keys and keeps the user; otherwise only the flag is lowered |
| AuthContext.LoggedIn | frontEnd/employee-management-system-frontend/src/context/AuthContext.tsx:43-48 | Authenticated with the given user; the token and serialised user are stored; other keys are kept |
| AuthContext.LoggedOut | frontEnd/employee-management-system-frontend/src/context/AuthContext.tsx:50-55 | Not authenticated, no user, both keys removed, other keys kept |
| AuthContext.LogoutIdempotent | frontEnd/employee-management-system-frontend/src/context/AuthContext.tsx:50-55 | Logging out twice equals logging out once |
| AuthContext.LoginThenLogout | frontEnd/employee-management-system-frontend/src/context/AuthContext.tsx:43-55 | A login followed by a logout leaves no session and the other keys as they were |
| AuthContext.LoadParseErrorClears | frontEnd/employee-management-system-frontend/src/context/AuthContext.tsx:28-37 | A stored user that fails to parse clears both keys and leaves the session unauthenticated |
| AuthContext.TransitionsKeepConsistent | frontEnd/employee-management-system-frontend/src/context/AuthContext.tsx:23-55 | Login and logout keep "authenticated implies a user"; so does loading, unless the stored user is the JSON literal `null` |
| AuthContext.LoadNullUserBreaksInvariant | frontEnd/employee-management-system-frontend/src/context/AuthContext.tsx:28-31 | A stored user text of `null` gives an authenticated session with no user |
| AuthContext.ReloadAfterLogin | frontEnd/employee-management-system-frontend/src/context/AuthContext.tsx:23-48 | Reloading after a login restores the same authenticated user |
| AuthContext.AuthProvider.constructor | frontEnd/employee-management-system-frontend/src/context/AuthContext.tsx:19-21 | Not authenticated, no user, over the saved storage |
| AuthContext.AuthProvider.LoadSavedSession | frontEnd/employee-management-system-frontend/src/context/AuthContext.tsx:23-41 | The new state is `Loaded` of the old state |
| AuthContext.AuthProvider.Login | frontEnd/employee-management-system-frontend/src/context/AuthContext.tsx:43-48 | The new state is `LoggedIn` of the old state |
| AuthContext.AuthProvider.Logout | frontEnd/employee-management-system-frontend/src/context/AuthContext.tsx:50-55 | The new state is `LoggedOut` of the old state |

## Left out

- `[Authorize(Roles = "Admin")]` on the employees controller (EmployeeControllers.cs line 10) is not modelled: the actions run for any caller. The reports controller carries no such attribute.
- EmployeeStore.List: the source lists with `ToListAsync` and no `OrderBy`, which promises no order. The model fixes the listing to insertion order, so the order facts of the listing and of the report hold for the model only.
- Reports: the `yyyy-MM-dd HH:mm:ss` and `yyyyMMddHHmmss` formats use the current culture's calendar and time separator. The model fixes them to the Gregorian calendar and ':'.
- Persistence: Entity Framework, PostgreSQL and the database context are a table value. Other constraints are not modelled: the database's own column limits and the `AsNoTracking` read semantics.
- EmployeeStore.Update: the `DbUpdateConcurrencyException` path is not modelled. The source does no existence check before the save: for an absent id the save affects no row and throws that exception, and the `Any` in the catch then answers NotFound; a conflict on a row that still exists is rethrown. The model checks existence directly, which gives the same NotFound answer, and has no concurrent writers.
- EmployeeStore.Create: a payload's own id is ignored and the next identity value is used. Inserting an explicit id into an identity column is database behaviour and is not modelled.
- The automatic `[ApiController]` model validation is not applied before the actions. The data annotations are stated by `Employees.SatisfiesAnnotations` but no action requires them.
- C# `null` strings inside a bound record are not modelled. A missing body is `None`.
- 32-bit `int` ids are unbounded integers, so identity overflow is not modelled.
- Auth: HMAC-SHA256 signing and token serialisation are not modelled; the token is the unsigned value. The GUID nonce and `DateTime.Now` are parameters. An absent, empty or too-short key is a `TokenFailed` result where the source throws. The 32-byte minimum is the HMAC-SHA256 rule of current versions of the token library; the library version is not part of the model.
- Reports: PDF rendering (fonts, alignment, layout) is not modelled. The currency text of `ToString("C")` is the parameter `currency`. The two `DateTime.UtcNow` reads are two parameters.
- `ReportRequestDto.cs` is not used by any modelled action.
- EmployeeApi.FormatEmployeeData: JavaScript floating point, `toFixed(2)` rounding and `NaN` are not modelled. Salary is already whole cents, so only the negative check remains, and a string-typed salary is not modelled. `new Date(...)` and `toISOString` are the parameter `toIsoDate`. "Today" is a parameter.
- EmployeeSchema.Parse: the zod e-mail pattern is the parameter `isEmail`. `new Date(...).toISOString()` is the parameter `toIsoString`, `None` for a RangeError. The engine's date reading is not modelled: for instance V8 accepts days 29 to 31 of any month and rolls them into the next month, so a well-shaped date may convert to a different day.
- Text.ToLower: only ASCII letters are lower-cased. Locale-independent Unicode case mapping is not modelled.
- String lengths count characters, not UTF-16 code units, so a character outside the Basic Multilingual Plane is counted once.
- The network layer is not modelled: axios, the base URL, the token header, logging, and the get/delete client calls that only forward requests.
- The React components, routing and rendering are not modelled, except the state and pure computations of the directory page and the auth provider.
- AuthContext.Loaded: `JSON.parse` is the parameter `parse`, with three outcomes: a parse error, the literal `null`, or a user. Other JSON values are not modelled.
- A stored entry counts as present when it is non-empty. That is JavaScript truthiness of the text returned by `getItem`.
- `useAuth` outside a provider is not modelled.

=== FILE: auth.dfy ===
/**
 * The login endpoint: one fixed credential pair, and a token whose claims,
 * issuer, audience and expiry are fixed by the request and the configuration.
 * Signing (HMAC-SHA256) and serialisation are not modelled: the token is the
 * value they would sign.
 */
module Auth {
  import opened Wrappers

  const AdminUserName := "Admin"
  const AdminPassword := "Chandra@6079#"
  const AdminRole := "Admin"
  /** One hour, in seconds. */
  const TokenLifetime := 3600
  /** HMAC-SHA256 signing refuses a key shorter than 256 bits. */
  const MinKeyBytes := 32

  datatype LoginRequest = LoginRequest(username: string, password: string)

  /** The `Jwt:Key`, `Jwt:Issuer` and `Jwt:Audience` configuration entries, each possibly absent. */
  datatype JwtConfig = JwtConfig(key: Option<string>, issuer: Option<string>, audience: Option<string>)

  /** `ClaimTypes.Name`, `ClaimTypes.Role`, and the registered claims `sub` and `jti` of RFC 7519. */
  datatype ClaimType = Name | Role | Sub | Jti

  datatype Claim = Claim(claimType: ClaimType, value: string)

  /** The unsigned token: `expires` is a time in seconds on the same clock as the issue time. */
  datatype Token = Token(issuer: Option<string>, audience: Option<string>, claims: seq<Claim>, expires: int, signingKey: string)

  /**
   * Why no token could be made: `Jwt:Key` is absent (the `?? throw`), empty
   * (`SymmetricSecurityKey` refuses zero bytes), or too short to sign with
   * HMAC-SHA256 (`WriteToken` refuses it).
   */
  datatype TokenError = KeyMissing | KeyEmpty | KeyTooShort

  datatype LoginResult = Ok(token: Token) | Unauthorized | TokenFailed(error: TokenError)

  /** The number of bytes of `Encoding.UTF8.GetBytes(s)`. */
  function Utf8Length(s: string): (n: nat)
    ensures |s| <= n <= 4 * |s|
    ensures n == 0 <==> s == []
  {
    if s == [] then 0
    else
      var c := s[0] as int;
      (if c < 0x80 then 1 else if c < 0x800 then 2 else if c < 0x10000 then 3 else 4)
      + Utf8Length(s[1..])
  }

  /** A key the HMAC-SHA256 signer accepts. */
  predicate UsableKey(key: string)
  {
    Utf8Length(key) >= MinKeyBytes
  }

  /** An ASCII key is one byte per character. */
  lemma {:induction false} AsciiUtf8Length(s: string)
    requires forall i :: 0 <= i < |s| ==> s[i] as int < 0x80
    ensures Utf8Length(s) == |s|
  {
    if s != [] {
      AsciiUtf8Length(s[1..]);
    }
  }

  /** `IsValidUser`: exact, case-sensitive equality with the one configured pair. */
  predicate IsValidUser(login: LoginRequest)
  {
    login.username == AdminUserName && login.password == AdminPassword
  }

  /** The claims of every token: each of the four claim types once; role Admin, name and subject the user, jti the nonce. */
  function Claims(username: string, jti: string): (cs: seq<Claim>)
    ensures |cs| == 4
    ensures forall i, j :: 0 <= i < j < |cs| ==> cs[i].claimType != cs[j].claimType
    ensures forall c :: c in cs && c.claimType == Role ==> c.value == AdminRole
    ensures forall c :: c in cs && (c.claimType == Name || c.claimType == Sub) ==> c.value == username
    ensures forall c :: c in cs && c.claimType == Jti ==> c.value == jti
  {
    [Claim(Name, username), Claim(Role, AdminRole), Claim(Sub, username), Claim(Jti, jti)]
  }

  /**
   * `GenerateJwtToken`: fails when no signing key is configured or the signer
   * refuses it; otherwise a token for `username` with the nonce `jti`,
   * expiring one hour after `now`.
   */
  function GenerateJwtToken(config: JwtConfig, username: string, jti: string, now: int): (r: Result<Token, TokenError>)
    ensures r.Failure? <==> config.key.None? || !UsableKey(config.key.value)
    ensures r == Failure(KeyMissing) <==> config.key.None?
    ensures r == Failure(KeyEmpty) <==> config.key == Some("")
    ensures r == Failure(KeyTooShort) <==> config.key.Some? && 0 < Utf8Length(config.key.value) < MinKeyBytes
    ensures r.Success? ==> r.value.expires == now + TokenLifetime && r.value.signingKey == config.key.value
    ensures r.Success? ==> r.value.issuer == config.issuer && r.value.audience == config.audience
  {
    match config.key
    case None => Failure(KeyMissing)
    case Some(key) =>
      if key == [] then Failure(KeyEmpty)
      else if !UsableKey(key) then Failure(KeyTooShort)
      else Success(Token(config.issuer, config.audience, Claims(username, jti), now + TokenLifetime, key))
  }

  /** `Login`: a token for the valid pair, Unauthorized for every other pair. */
  function Login(config: JwtConfig, login: LoginRequest, jti: string, now: int): (r: LoginResult)
    ensures r.Ok? <==> IsValidUser(login) && config.key.Some? && UsableKey(config.key.value)
    ensures r == Unauthorized <==> !IsValidUser(login)
    ensures r.TokenFailed? <==> IsValidUser(login) && (config.key.None? || !UsableKey(config.key.value))
    ensures r.TokenFailed? ==> Failure(r.error) == GenerateJwtToken(config, login.username, jti, now)
  {
    if IsValidUser(login) then
      match GenerateJwtToken(config, login.username, jti, now)
      case Success(token) => Ok(token)
      case Failure(e) => TokenFailed(e)
    else Unauthorized
  }

  /** Only the exact pair logs in: a change of case in either part is refused. */
  lemma OnlyAdminPairAccepted(config: JwtConfig, login: LoginRequest, jti: string, now: int)
    requires config.key.Some? && UsableKey(config.key.value)
    ensures Login(config, login, jti, now).Ok? <==> login == LoginRequest("Admin", "Chandra@6079#")
    ensures Login(config, LoginRequest("admin", AdminPassword), jti, now) == Unauthorized
  {
    assert "admin" != AdminUserName by { assert "admin"[0] != AdminUserName[0]; }
  }

  /** A wrong user name and a wrong password produce the same answer. */
  lemma NoUserEnumeration(config: JwtConfig, user: string, password: string, jti: string, now: int)
    requires user != AdminUserName && password != AdminPassword
    ensures Login(config, LoginRequest(user, AdminPassword), jti, now)
         == Login(config, LoginRequest(AdminUserName, password), jti, now)
         == Login(config, LoginRequest(user, password), jti, now)
         == Unauthorized
  {
  }

  /**
   * The token of a successful login: exactly the four claims name = sub =
   * the user name, role = Admin, jti = the nonce; expiry one hour after issue.
   */
  lemma LoginTokenContents(config: JwtConfig, jti: string, now: int)
    requires config.key.Some? && UsableKey(config.key.value)
    ensures var r := Login(config, LoginRequest(AdminUserName, AdminPassword), jti, now);
      && r.Ok?
      && r.token.claims == [Claim(Name, "Admin"), Claim(Role, "Admin"), Claim(Sub, "Admin"), Claim(Jti, jti)]
      && r.token.expires - now == 3600
      && r.token.issuer == config.issuer && r.token.audience == config.audience
      && r.token.signingKey == config.key.value
  {
  }

  /** Two logins with different nonces give tokens that differ only in their `jti` claim. */
  lemma TokensDifferOnlyInJti(config: JwtConfig, jti1: string, jti2: string, now: int)
    requires config.key.Some? && UsableKey(config.key.value) && jti1 != jti2
    ensures var t1 := Login(config, LoginRequest(AdminUserName, AdminPassword), jti1, now).token;
      var t2 := Login(config, LoginRequest(AdminUserName, AdminPassword), jti2, now).token;
      t1 != t2 && t1.claims[..3] == t2.claims[..3] && t1 == t2.(claims := t1.claims)
  {
  }

  /** With an ASCII key, the valid pair logs in exactly when the key has at least 32 characters. */
  lemma AsciiKeyThreshold(config: JwtConfig, jti: string, now: int)
    requires config.key.Some?
    requires forall i :: 0 <= i < |config.key.value| ==> config.key.value[i] as int < 0x80
    ensures Login(config, LoginRequest(AdminUserName, AdminPassword), jti, now).Ok? <==> |config.key.value| >= 32
  {
    AsciiUtf8Length(config.key.value);
  }
}

=== FILE: auth_context.dfy ===
/**
 * The client's authentication state: the `isAuthenticated` flag, the current
 * user, and the browser storage keys `jwtToken` and `user` that carry the
 * session across page loads. `JSON.stringify` and `JSON.parse` of a user are
 * parameters.
 */
module AuthContext {
  import opened Wrappers

  datatype User = User(id: int, email: string, role: string)

  /** What `JSON.parse` does with a stored text: throw, yield `null`, or yield a user object. */
  datatype Parsed = ParseError | JsonNull | JsonUser(user: User)

  const TokenKey := "jwtToken"
  const UserKey := "user"

  datatype Session = Session(isAuthenticated: bool, user: Option<User>, storage: map<string, string>)

  /** The state before the load effect has run: `useState(false)`, `useState(null)`. */
  function Initial(storage: map<string, string>): Session
  {
    Session(false, None, storage)
  }

  /** `localStorage.getItem(key)` read in a condition: absent (null) and "" are falsy. */
  predicate Truthy(storage: map<string, string>, key: string)
  {
    key in storage && storage[key] != ""
  }

  /** The invariant the UI relies on: an authenticated session has a user. */
  predicate Consistent(s: Session)
  {
    s.isAuthenticated ==> s.user.Some?
  }

  /**
   * The load effect: with both keys truthy the saved user is parsed; a parse
   * error clears both keys. `parse` is `JSON.parse` on the saved text.
   */
  function Loaded(s: Session, parse: string -> Parsed): (r: Session)
    ensures r.isAuthenticated <==> Truthy(s.storage, TokenKey) && Truthy(s.storage, UserKey)
                                   && parse(s.storage[UserKey]) != ParseError
    ensures r.isAuthenticated ==> r.storage == s.storage
    ensures Truthy(s.storage, TokenKey) && Truthy(s.storage, UserKey) ==>
      match parse(s.storage[UserKey])
      case JsonUser(u) => r.user == Some(u)
      case JsonNull => r.user == None
      case ParseError => r.user == s.user && r.storage == s.storage - {TokenKey, UserKey}
    ensures !(Truthy(s.storage, TokenKey) && Truthy(s.storage, UserKey)) ==> r == s.(isAuthenticated := false)
  {
    if Truthy(s.storage, TokenKey) && Truthy(s.storage, UserKey) then
      match parse(s.storage[UserKey])
      case ParseError => Session(false, s.user, s.storage - {TokenKey, UserKey})
      case JsonNull => Session(true, None, s.storage)
      case JsonUser(u) => Session(true, Some(u), s.storage)
    else Session(false, s.user, s.storage)
  }

  /** `login`: both keys written, the user set, and the flag raised; `stringify` is `JSON.stringify`. */
  function LoggedIn(s: Session, userData: User, token: string, stringify: User -> string): (r: Session)
    ensures r.isAuthenticated && r.user == Some(userData)
    ensures r.storage.Keys == s.storage.Keys + {TokenKey, UserKey}
    ensures r.storage[TokenKey] == token && r.storage[UserKey] == stringify(userData)
    ensures forall k :: k in s.storage && k != TokenKey && k != UserKey ==> r.storage[k] == s.storage[k]
  {
    Session(true, Some(userData), s.storage[TokenKey := token][UserKey := stringify(userData)])
  }

  /** `logout`: both keys removed, no user, flag lowered. */
  function LoggedOut(s: Session): (r: Session)
    ensures !r.isAuthenticated && r.user.None?
    ensures TokenKey !in r.storage && UserKey !in r.storage
    ensures forall k :: k in s.storage && k != TokenKey && k != UserKey ==> k in r.storage && r.storage[k] == s.storage[k]
    ensures r.storage.Keys <= s.storage.Keys
  {
    Session(false, None, s.storage - {TokenKey, UserKey})
  }

  /** Logging out twice is logging out once. */
  lemma LogoutIdempotent(s: Session)
    ensures LoggedOut(LoggedOut(s)) == LoggedOut(s)
  {
    assert LoggedOut(s).storage - {TokenKey, UserKey} == LoggedOut(s).storage;
  }

  /** Login followed by logout leaves no session keys and no session, and restores every other key. */
  lemma LoginThenLogout(s: Session, u: User, token: string, stringify: User -> string)
    ensures var r := LoggedOut(LoggedIn(s, u, token, stringify));
      !r.isAuthenticated && r.user.None? && TokenKey !in r.storage && UserKey !in r.storage
      && r.storage == s.storage - {TokenKey, UserKey}
  {
  }

  /** A stored user that does not parse: both keys are removed and the session stays unauthenticated. */
  lemma LoadParseErrorClears(storage: map<string, string>, parse: string -> Parsed)
    requires Truthy(storage, TokenKey) && Truthy(storage, UserKey) && parse(storage[UserKey]) == ParseError
    ensures var r := Loaded(Initial(storage), parse);
      !r.isAuthenticated && r.user.None? && r.storage == storage - {TokenKey, UserKey}
      && TokenKey !in r.storage && UserKey !in r.storage
  {
  }

  /** Login and logout keep the invariant; loading keeps it unless the stored user is the JSON literal null. */
  lemma TransitionsKeepConsistent(s: Session, u: User, token: string, stringify: User -> string, parse: string -> Parsed)
    requires Consistent(s)
    ensures Consistent(LoggedIn(s, u, token, stringify))
    ensures Consistent(LoggedOut(s))
    ensures !(Truthy(s.storage, UserKey) && parse(s.storage[UserKey]) == JsonNull) ==> Consistent(Loaded(s, parse))
  {
  }

  /** The exception: a token and a stored user text that parses to null give an authenticated session without a user. */
  lemma LoadNullUserBreaksInvariant(storage: map<string, string>, parse: string -> Parsed)
    requires Truthy(storage, TokenKey) && Truthy(storage, UserKey) && parse(storage[UserKey]) == JsonNull
    ensures !Consistent(Loaded(Initial(storage), parse))
  {
  }

  /** A reload after login restores the session, when the user survives the JSON round trip and the token is non-empty. */
  lemma ReloadAfterLogin(s: Session, u: User, token: string, stringify: User -> string, parse: string -> Parsed)
    requires token != "" && stringify(u) != "" && parse(stringify(u)) == JsonUser(u)
    ensures var after := LoggedIn(s, u, token, stringify);
      Loaded(Initial(after.storage), parse) == Session(true, Some(u), after.storage)
  {
  }

  /** The provider's state, changed in place by the load effect, `login` and `logout`. */
  class AuthProvider {
    var isAuthenticated: bool
    var user: Option<User>
    var storage: map<string, string>

    function State(): Session
      reads this
    {
      Session(isAuthenticated, user, storage)
    }

    constructor (saved: map<string, string>)
      ensures State() == Initial(saved)
    {
      isAuthenticated, user, storage := false, None, saved;
    }

    /** The `useEffect` that restores a saved session on load. */
    method LoadSavedSession(parse: string -> Parsed)
      modifies this
      ensures State() == Loaded(old(State()), parse)
    {
      var hasToken := TokenKey in storage && storage[TokenKey] != "";
      var hasUser := UserKey in storage && storage[UserKey] != "";
      if hasToken && hasUser {
        match parse(storage[UserKey]) {
          case ParseError =>
            storage := storage - {TokenKey};
            storage := storage - {UserKey};
            isAuthenticated := false;
          case JsonNull =>
            user := None;
            isAuthenticated := true;
          case JsonUser(u) =>
            user := Some(u);
            isAuthenticated := true;
        }
      } else {
        isAuthenticated := false;
      }
    }

    method Login(userData: User, token: string, stringify: User -> string)
      modifies this
      ensures State() == LoggedIn(old(State()), userData, token, stringify)
    {
      storage := storage[TokenKey := token];
      storage := storage[UserKey := stringify(userData)];
      user := Some(userData);
      isAuthenticated := true;
    }

    method Logout()
      modifies this
      ensures State() == LoggedOut(old(State()))
    {
      storage := storage - {TokenKey};
      storage := storage - {UserKey};
      user := None;
      isAuthenticated := false;
    }
  }
}

=== FILE: calendar.dfy ===
/**
 * The .NET `DateTime` values the back end stores and formats, to the second,
 * and the custom format strings the report uses (`yyyy-MM-dd`,
 * `yyyyMMddHHmmss`, `yyyy-MM-dd HH:mm:ss`).
 */
module Calendar {
  import opened Text
  import opened Wrappers

  datatype Timestamp = Timestamp(year: int, month: int, day: int, hour: int, minute: int, second: int)

  predicate IsLeapYear(y: int)
  {
    y % 4 == 0 && (y % 100 != 0 || y % 400 == 0)
  }

  function DaysInMonth(y: int, m: int): int
  {
    if m == 2 then (if IsLeapYear(y) then 29 else 28)
    else if m == 4 || m == 6 || m == 9 || m == 11 then 30
    else 31
  }

  /** The range of `System.DateTime`: years 1 to 9999, real calendar days, a 24-hour clock. */
  predicate IsValidTimestamp(t: Timestamp)
  {
    && 1 <= t.year <= 9999
    && 1 <= t.month <= 12
    && 1 <= t.day <= DaysInMonth(t.year, t.month)
    && 0 <= t.hour < 24 && 0 <= t.minute < 60 && 0 <= t.second < 60
  }

  type DateTime = t: Timestamp | IsValidTimestamp(t) witness Timestamp(1, 1, 1, 0, 0, 0)

  /** The shape `^\d{4}-\d{2}-\d{2}$`: four digits, '-', two digits, '-', two digits. */
  predicate IsIsoDateShape(s: string)
  {
    && |s| == 10
    && AllDigits(s[0..4]) && s[4] == '-'
    && AllDigits(s[5..7]) && s[7] == '-'
    && AllDigits(s[8..10])
  }

  /** `ToString("yyyy-MM-dd")`. */
  function FormatDate(d: DateTime): (s: string)
    ensures IsIsoDateShape(s)
  {
    Digits(d.year, 4) + "-" + Digits(d.month, 2) + "-" + Digits(d.day, 2)
  }

  /** `ToString("yyyyMMddHHmmss")`. */
  function FormatCompactStamp(d: DateTime): (s: string)
    ensures |s| == 14 && AllDigits(s)
  {
    Digits(d.year, 4) + Digits(d.month, 2) + Digits(d.day, 2)
      + Digits(d.hour, 2) + Digits(d.minute, 2) + Digits(d.second, 2)
  }

  /** `ToString("yyyy-MM-dd HH:mm:ss")`. */
  function FormatLongStamp(d: DateTime): (s: string)
    ensures |s| == 19
  {
    FormatDate(d) + " " + Digits(d.hour, 2) + ":" + Digits(d.minute, 2) + ":" + Digits(d.second, 2)
  }

  /** Reads a `yyyy-MM-dd` string back as midnight of that day, if it names a real day. */
  function ParseDate(s: string): (r: Option<DateTime>)
    ensures r.Some? ==> IsIsoDateShape(s) && r.value.hour == r.value.minute == r.value.second == 0
  {
    if !IsIsoDateShape(s) then None
    else
      var t := Timestamp(ValueOf(s[0..4]), ValueOf(s[5..7]), ValueOf(s[8..10]), 0, 0, 0);
      if IsValidTimestamp(t) then Some(t) else None
  }

  /** Formatting a date and reading it back recovers the day (the time of day is not part of the text). */
  lemma FormatDateRoundTrip(d: DateTime)
    ensures ParseDate(FormatDate(d)) == Some(Timestamp(d.year, d.month, d.day, 0, 0, 0))
  {
    var s := FormatDate(d);
    assert s[0..4] == Digits(d.year, 4);
    assert s[5..7] == Digits(d.month, 2);
    assert s[8..10] == Digits(d.day, 2);
    assert Pow10(4) == 10000 && Pow10(2) == 100;
    ValueOfDigits(d.year, 4);
    ValueOfDigits(d.month, 2);
    ValueOfDigits(d.day, 2);
  }

  /** Reads a `yyyyMMddHHmmss` stamp back, if it is fourteen digits naming a valid time. */
  function ParseCompactStamp(s: string): (r: Option<DateTime>)
    ensures r.Some? ==> |s| == 14 && AllDigits(s)
  {
    if |s| != 14 || !AllDigits(s) then None
    else
      var t := Timestamp(ValueOf(s[0..4]), ValueOf(s[4..6]), ValueOf(s[6..8]),
                         ValueOf(s[8..10]), ValueOf(s[10..12]), ValueOf(s[12..14]));
      if IsValidTimestamp(t) then Some(t) else None
  }

  /** The compact stamp names its time exactly: reading it back gives the same `DateTime`. */
  lemma CompactStampRoundTrip(d: DateTime)
    ensures ParseCompactStamp(FormatCompactStamp(d)) == Some(d)
  {
    var s := FormatCompactStamp(d);
    var date := Digits(d.year, 4) + Digits(d.month, 2) + Digits(d.day, 2);
    var time := Digits(d.hour, 2) + Digits(d.minute, 2) + Digits(d.second, 2);
    assert s == date + time;
    assert s[..8] == date && s[8..] == time;
    assert s[0..4] == date[0..4] == Digits(d.year, 4);
    assert s[4..6] == date[4..6] == Digits(d.month, 2);
    assert s[6..8] == date[6..8] == Digits(d.day, 2);
    assert s[8..10] == time[0..2] == Digits(d.hour, 2);
    assert s[10..12] == time[2..4] == Digits(d.minute, 2);
    assert s[12..14] == time[4..6] == Digits(d.second, 2);
    assert Pow10(4) == 10000 && Pow10(2) == 100;
    ValueOfDigits(d.year, 4);
    ValueOfDigits(d.month, 2);
    ValueOfDigits(d.day, 2);
    ValueOfDigits(d.hour, 2);
    ValueOfDigits(d.minute, 2);
    ValueOfDigits(d.second, 2);
  }

  /** Reads a `yyyy-MM-dd HH:mm:ss` stamp back, if it has that shape and names a valid time. */
  function ParseLongStamp(s: string): (r: Option<DateTime>)
    ensures r.Some? ==> |s| == 19 && IsIsoDateShape(s[..10]) && s[10] == ' ' && s[13] == ':' && s[16] == ':'
  {
    if |s| != 19 || !IsIsoDateShape(s[..10]) || s[10] != ' ' || s[13] != ':' || s[16] != ':'
       || !AllDigits(s[11..13]) || !AllDigits(s[14..16]) || !AllDigits(s[17..19]) then None
    else
      var date := s[..10];
      var t := Timestamp(ValueOf(date[0..4]), ValueOf(date[5..7]), ValueOf(date[8..10]),
                         ValueOf(s[11..13]), ValueOf(s[14..16]), ValueOf(s[17..19]));
      if IsValidTimestamp(t) then Some(t) else None
  }

  /** The long stamp names its time exactly: reading it back gives the same `DateTime`. */
  lemma LongStampRoundTrip(d: DateTime)
    ensures ParseLongStamp(FormatLongStamp(d)) == Some(d)
  {
    var s := FormatLongStamp(d);
    var date := FormatDate(d);
    assert s[..10] == date;
    assert date[0..4] == Digits(d.year, 4);
    assert date[5..7] == Digits(d.month, 2);
    assert date[8..10] == Digits(d.day, 2);
    assert s[11..13] == Digits(d.hour, 2);
    assert s[14..16] == Digits(d.minute, 2);
    assert s[17..19] == Digits(d.second, 2);
    assert Pow10(4) == 10000 && Pow10(2) == 100;
    ValueOfDigits(d.year, 4);
    ValueOfDigits(d.month, 2);
    ValueOfDigits(d.day, 2);
    ValueOfDigits(d.hour, 2);
    ValueOfDigits(d.minute, 2);
    ValueOfDigits(d.second, 2);
  }

  /** Distinct days format to distinct strings. */
  lemma FormatDateInjective(d1: DateTime, d2: DateTime)
    requires FormatDate(d1) == FormatDate(d2)
    ensures d1.year == d2.year && d1.month == d2.month && d1.day == d2.day
  {
    FormatDateRoundTrip(d1);
    FormatDateRoundTrip(d2);
  }
}

=== FILE: directory_page.dfy ===
/**
 * Client-side pagination of the employee directory: the rows shown for a
 * page, the page count, and the page state the Previous/Next buttons and the
 * rows-per-page selector change.
 */
module DirectoryPage {
  import opened Employees

  /** `Array.prototype.slice` index normalisation: negative counts from the end, then clamp to the length. */
  function SliceIndex(i: int, len: nat): (k: nat)
    ensures k <= len
    ensures 0 <= i ==> k == if i < len then i else len
  {
    if i < 0 then (if len + i < 0 then 0 else len + i) else if i < len then i else len
  }

  /** `s.slice(start, end)`. */
  function Slice<T>(s: seq<T>, start: int, end: int): seq<T>
  {
    var from := SliceIndex(start, |s|);
    var to := SliceIndex(end, |s|);
    if from < to then s[from..to] else []
  }

  function Min(a: int, b: int): int
  {
    if a < b then a else b
  }

  /** `employees.slice(page * rowsPerPage, page * rowsPerPage + rowsPerPage)`. */
  function DisplayedRows<T>(employees: seq<T>, page: int, rowsPerPage: int): seq<T>
  {
    Slice(employees, page * rowsPerPage, page * rowsPerPage + rowsPerPage)
  }

  /** For a page at or after the first, the rows shown are the rows at positions [page * rpp, page * rpp + rpp), clipped. */
  lemma DisplayedRowsWindow<T>(employees: seq<T>, page: int, rowsPerPage: int)
    requires page >= 0 && rowsPerPage > 0
    ensures var n := |employees|;
      var lo := Min(page * rowsPerPage, n);
      var hi := Min(page * rowsPerPage + rowsPerPage, n);
      lo <= hi && DisplayedRows(employees, page, rowsPerPage) == employees[lo..hi]
    ensures |DisplayedRows(employees, page, rowsPerPage)| <= rowsPerPage
  {
    assert page * rowsPerPage >= 0;
  }

  /** `Math.ceil(employees.length / rowsPerPage)`. */
  function TotalPages(n: nat, rowsPerPage: int): (t: nat)
    requires rowsPerPage > 0
    ensures t * rowsPerPage >= n
    ensures n > 0 ==> (t - 1) * rowsPerPage < n
    ensures t == 0 <==> n == 0
  {
    var t := (n + rowsPerPage - 1) / rowsPerPage;
    var m := (n + rowsPerPage - 1) % rowsPerPage;
    assert n + rowsPerPage - 1 == t * rowsPerPage + m;
    assert (t - 1) * rowsPerPage == t * rowsPerPage - rowsPerPage;
    t
  }

  /** Pages 0 to `k - 1`, one after another. */
  function Pages<T>(employees: seq<T>, rowsPerPage: int, k: nat): seq<T>
  {
    if k == 0 then [] else Pages(employees, rowsPerPage, k - 1) + DisplayedRows(employees, k - 1, rowsPerPage)
  }

  /** The first `k` pages are exactly the first `k * rpp` rows (clipped). */
  lemma {:induction false} PagesArePrefix<T>(employees: seq<T>, rowsPerPage: int, k: nat)
    requires rowsPerPage > 0
    ensures Pages(employees, rowsPerPage, k) == employees[..Min(k * rowsPerPage, |employees|)]
  {
    if k > 0 {
      PagesArePrefix(employees, rowsPerPage, k - 1);
      DisplayedRowsWindow(employees, k - 1, rowsPerPage);
      assert (k - 1) * rowsPerPage + rowsPerPage == k * rowsPerPage;
      var lo := Min((k - 1) * rowsPerPage, |employees|);
      var hi := Min(k * rowsPerPage, |employees|);
      assert employees[..lo] + employees[lo..hi] == employees[..hi];
    }
  }

  /** Concatenating every page gives back the whole list, in order. */
  lemma PagesCoverList<T>(employees: seq<T>, rowsPerPage: int)
    requires rowsPerPage > 0
    ensures Pages(employees, rowsPerPage, TotalPages(|employees|, rowsPerPage)) == employees
  {
    PagesArePrefix(employees, rowsPerPage, TotalPages(|employees|, rowsPerPage));
  }

  /**
   * The row at position `i` is shown on page `i / rpp` and on no other page:
   * each employee appears on exactly one page.
   */
  lemma RowOnExactlyOnePage<T>(employees: seq<T>, rowsPerPage: int, i: nat, page: nat)
    requires rowsPerPage > 0 && i < |employees|
    ensures i / rowsPerPage < TotalPages(|employees|, rowsPerPage)
    ensures i % rowsPerPage < |DisplayedRows(employees, i / rowsPerPage, rowsPerPage)|
    ensures DisplayedRows(employees, i / rowsPerPage, rowsPerPage)[i % rowsPerPage] == employees[i]
    ensures page * rowsPerPage <= i < page * rowsPerPage + rowsPerPage <==> page == i / rowsPerPage
  {
    RowPageExists(|employees|, rowsPerPage, i);
    RowIsShown(employees, rowsPerPage, i);
    RowPageUnique(rowsPerPage, i, page);
  }

  lemma RowPageExists(n: nat, rowsPerPage: int, i: nat)
    requires rowsPerPage > 0 && i < n
    ensures i / rowsPerPage < TotalPages(n, rowsPerPage)
  {
    var q := i / rowsPerPage;
    var t := TotalPages(n, rowsPerPage);
    assert q * rowsPerPage <= i;
    if q >= t {
      MulMonotone(t, q, rowsPerPage);
    }
  }

  lemma RowIsShown<T>(employees: seq<T>, rowsPerPage: int, i: nat)
    requires rowsPerPage > 0 && i < |employees|
    ensures i % rowsPerPage < |DisplayedRows(employees, i / rowsPerPage, rowsPerPage)|
    ensures DisplayedRows(employees, i / rowsPerPage, rowsPerPage)[i % rowsPerPage] == employees[i]
  {
    var q := i / rowsPerPage;
    var lo := q * rowsPerPage;
    assert i == lo + i % rowsPerPage;
    DisplayedRowsWindow(employees, q, rowsPerPage);
    assert Min(lo, |employees|) == lo;
  }

  lemma RowPageUnique(rowsPerPage: int, i: nat, page: nat)
    requires rowsPerPage > 0
    ensures page * rowsPerPage <= i < page * rowsPerPage + rowsPerPage <==> page == i / rowsPerPage
  {
    var q := i / rowsPerPage;
    assert q * rowsPerPage <= i < q * rowsPerPage + rowsPerPage;
    if page < q {
      MulMonotone(page + 1, q, rowsPerPage);
      assert (page + 1) * rowsPerPage == page * rowsPerPage + rowsPerPage;
    } else if page > q {
      MulMonotone(q + 1, page, rowsPerPage);
      assert (q + 1) * rowsPerPage == q * rowsPerPage + rowsPerPage;
    }
  }

  lemma MulMonotone(a: nat, b: nat, c: nat)
    requires a <= b
    ensures a * c <= b * c
  {
  }

  /** A page index at or past the page count selects no rows; the paging buttons never move there. */
  lemma PagePastEndIsEmpty<T>(employees: seq<T>, rowsPerPage: int, page: int)
    requires rowsPerPage > 0 && page >= TotalPages(|employees|, rowsPerPage)
    ensures DisplayedRows(employees, page, rowsPerPage) == []
  {
    var t := TotalPages(|employees|, rowsPerPage);
    MulMonotone(t, page, rowsPerPage);
    DisplayedRowsWindow(employees, page, rowsPerPage);
  }

  const InitialRowsPerPage := 10

  /** The values of the rows-per-page selector. */
  predicate IsRowsOption(r: int)
  {
    r == 5 || r == 10 || r == 25
  }

  /** The pages the buttons can reach: 0 to `max(totalPages - 1, 0)`. */
  predicate PageInRange(page: int, n: nat, rowsPerPage: int)
    requires rowsPerPage > 0
  {
    0 <= page && (page <= TotalPages(n, rowsPerPage) - 1 || page == 0)
  }

  /** `disabled={page === 0}`. */
  predicate PreviousDisabled(page: int)
  {
    page == 0
  }

  /** `disabled={page >= totalPages - 1}`. */
  predicate NextDisabled(page: int, n: nat, rowsPerPage: int)
    requires rowsPerPage > 0
  {
    page >= TotalPages(n, rowsPerPage) - 1
  }

  /** Clicking an enabled Previous or Next button keeps the page within range. */
  lemma ButtonsKeepPageInRange(page: int, n: nat, rowsPerPage: int)
    requires rowsPerPage > 0 && PageInRange(page, n, rowsPerPage)
    ensures !PreviousDisabled(page) ==> PageInRange(page - 1, n, rowsPerPage)
    ensures !NextDisabled(page, n, rowsPerPage) ==> PageInRange(page + 1, n, rowsPerPage)
  {
  }

  /** Next is disabled exactly when the page after the current one would show no rows. */
  lemma NextDisabledExactlyBeforeEmptyPage<T>(employees: seq<T>, page: int, rowsPerPage: int)
    requires rowsPerPage > 0 && page >= 0
    ensures NextDisabled(page, |employees|, rowsPerPage) <==> DisplayedRows(employees, page + 1, rowsPerPage) == []
  {
    var n := |employees|;
    var t := TotalPages(n, rowsPerPage);
    DisplayedRowsWindow(employees, page + 1, rowsPerPage);
    if page + 1 >= t {
      MulMonotone(t, page + 1, rowsPerPage);
    } else {
      MulMonotone(page + 1, t - 1, rowsPerPage);
    }
  }

  /** With an empty directory both buttons are disabled on the first page. */
  lemma EmptyDirectoryButtons(rowsPerPage: int)
    requires rowsPerPage > 0
    ensures PreviousDisabled(0) && NextDisabled(0, 0, rowsPerPage)
  {
  }

  /** The page state of the directory page. */
  class Pager {
    var page: int
    var rowsPerPage: int

    predicate Valid()
      reads this
    {
      page >= 0 && IsRowsOption(rowsPerPage)
    }

    /** `useState(0)` and `useState(10)`. */
    constructor ()
      ensures Valid() && page == 0 && rowsPerPage == InitialRowsPerPage
    {
      page := 0;
      rowsPerPage := InitialRowsPerPage;
    }

    /** `handleChangeRowsPerPage`: the new size, and back to the first page. */
    method ChangeRowsPerPage(value: int)
      requires IsRowsOption(value)
      modifies this
      ensures Valid() && rowsPerPage == value && page == 0
    {
      rowsPerPage := value;
      page := 0;
    }

    /** The Previous button: moves back one page unless it is disabled. */
    method ClickPrevious(n: nat)
      requires Valid() && PageInRange(page, n, rowsPerPage)
      modifies this
      ensures Valid() && PageInRange(page, n, rowsPerPage) && rowsPerPage == old(rowsPerPage)
      ensures page == if PreviousDisabled(old(page)) then old(page) else old(page) - 1
    {
      ButtonsKeepPageInRange(page, n, rowsPerPage);
      if !PreviousDisabled(page) {
        page := page - 1;
      }
    }

    /** The Next button: moves on one page unless it is disabled. */
    method ClickNext(n: nat)
      requires Valid() && PageInRange(page, n, rowsPerPage)
      modifies this
      ensures Valid() && PageInRange(page, n, rowsPerPage) && rowsPerPage == old(rowsPerPage)
      ensures page == if NextDisabled(old(page), n, rowsPerPage) then old(page) else old(page) + 1
    {
      ButtonsKeepPageInRange(page, n, rowsPerPage);
      if !NextDisabled(page, n, rowsPerPage) {
        page := page + 1;
      }
    }

    /** The rows the table shows for the current state. */
    method Displayed(employees: seq<Employee>) returns (rows: seq<Employee>)
      requires Valid()
      ensures |rows| <= rowsPerPage
      ensures Min(page * rowsPerPage, |employees|) <= Min(page * rowsPerPage + rowsPerPage, |employees|)
      ensures rows == employees[Min(page * rowsPerPage, |employees|)..Min(page * rowsPerPage + rowsPerPage, |employees|)]
      ensures forall k :: 0 <= k < |rows| ==>
        page * rowsPerPage + k < |employees| && rows[k] == employees[page * rowsPerPage + k]
    {
      DisplayedRowsWindow(employees, page, rowsPerPage);
      rows := DisplayedRows(employees, page, rowsPerPage);
    }
  }
}

=== FILE: employee.dfy ===
/**
 * The `Employee` entity of the back end: its fields, the defaults a freshly
 * bound record starts from, and the data-annotation constraints on it.
 * Salary is `decimal(18, 2)`, held here as a whole number of cents.
 */
module Employees {
  import opened Calendar

  datatype Employee = Employee(
    id: int,
    firstName: string,
    lastName: string,
    department: string,
    position: string,
    salaryCents: int,
    dateOfJoining: DateTime,
    email: string,
    phoneNumber: string,
    status: string)

  const MaxNameLength := 100
  const MaxDepartmentLength := 50
  const MaxPositionLength := 50
  const MaxPhoneLength := 20
  const MaxStatusLength := 20
  const DefaultStatus := "Active"

  /** The values the comment on `Status` names. */
  predicate IsIntendedStatus(s: string)
  {
    s == "Active" || s == "Inactive" || s == "Leave"
  }

  /** A record as the model binder creates it before reading the request body: defaults everywhere. */
  function NewEmployee(utcNow: DateTime): (e: Employee)
    ensures e.firstName == e.lastName == e.department == e.position == e.email == e.phoneNumber == ""
    ensures e.status == DefaultStatus && IsIntendedStatus(e.status)
    ensures e.dateOfJoining == utcNow && e.salaryCents == 0 && e.id == 0
  {
    Employee(0, "", "", "", "", 0, utcNow, "", "", DefaultStatus)
  }

  /** `char.IsWhiteSpace`: the separators of Unicode categories Zs, Zl, Zp and the controls U+0009-U+000D, U+0085. */
  predicate IsDotNetWhiteSpace(c: char)
  {
    || ('\t' <= c <= '\r') || c == ' ' || c == '\U{0085}' || c == '\U{00A0}' || c == '\U{1680}'
    || ('\U{2000}' <= c <= '\U{200A}')
    || c == '\U{2028}' || c == '\U{2029}' || c == '\U{202F}' || c == '\U{205F}' || c == '\U{3000}'
  }

  /** `[Required]` on a string: not empty and not whitespace only. */
  predicate MeetsRequired(s: string)
  {
    exists i :: 0 <= i < |s| && !IsDotNetWhiteSpace(s[i])
  }

  /**
   * Every data annotation of `Employee` holds. The `[EmailAddress]` check is the
   * parameter `isEmailAddress`.
   */
  predicate SatisfiesAnnotations(e: Employee, isEmailAddress: string -> bool)
  {
    && MeetsRequired(e.firstName) && |e.firstName| <= MaxNameLength
    && MeetsRequired(e.lastName) && |e.lastName| <= MaxNameLength
    && MeetsRequired(e.department) && |e.department| <= MaxDepartmentLength
    && MeetsRequired(e.position) && |e.position| <= MaxPositionLength
    && MeetsRequired(e.email) && isEmailAddress(e.email)
    && |e.phoneNumber| <= MaxPhoneLength
    && MeetsRequired(e.status) && |e.status| <= MaxStatusLength
  }

  /** The controller's own check before `Add`: first name, last name and email are not empty. */
  predicate HasRequiredFields(e: Employee)
  {
    e.firstName != "" && e.lastName != "" && e.email != ""
  }

  /** A record that meets the annotations also passes the controller's weaker emptiness check, but not conversely. */
  lemma AnnotationsImplyRequiredFields(e: Employee, isEmailAddress: string -> bool)
    ensures SatisfiesAnnotations(e, isEmailAddress) ==> HasRequiredFields(e)
    ensures !SatisfiesAnnotations(e.(firstName := " "), isEmailAddress)
    ensures HasRequiredFields(e) ==> HasRequiredFields(e.(firstName := " "))
  {
    assert !MeetsRequired(" ") by {
      assert forall i :: 0 <= i < |" "| ==> IsDotNetWhiteSpace(" "[i]);
    }
  }

  /** The record a new binding starts from is rejected by the annotations: its required strings are empty. */
  lemma DefaultRecordIsIncomplete(utcNow: DateTime, isEmailAddress: string -> bool)
    ensures !SatisfiesAnnotations(NewEmployee(utcNow), isEmailAddress)
    ensures !HasRequiredFields(NewEmployee(utcNow))
  {
  }
}

=== FILE: employee_api.dfy ===
/**
 * The client-side preparation of employee payloads: normalising the form data,
 * the "falsy means missing" required-field check, the update payload, and the
 * text of the error raised from a server validation response.
 */
module EmployeeApi {
  import opened Wrappers
  import opened Text
  import opened Calendar
  import opened Employees
  import EmployeeStore
  import EmployeeSchema

  /** The data a page hands to the API (`Omit<Employee, 'id'>`); salary in cents. */
  datatype EmployeeData = EmployeeData(
    firstName: string, lastName: string, department: string, position: string,
    salaryCents: int, dateOfJoining: string, email: string)

  /** The object `formatEmployeeData` builds. */
  datatype Formatted = Formatted(
    firstName: string, lastName: string, email: string, department: string,
    position: string, salaryCents: int, dateOfJoining: string)

  datatype UpdatePayload = UpdatePayload(id: int, body: Formatted)

  const SalaryError := "Salary must be a valid positive number"
  const DateError := "Invalid date format. Use YYYY-MM-DD"
  const MissingPrefix := "Required fields missing: "

  /**
   * `formatEmployeeData`. A negative salary is refused first; then a non-empty
   * date is converted by `toIsoDate` (the date part of
   * `new Date(s).toISOString()`, None for an invalid date) and an empty one is
   * replaced by `today`. The five strings are trimmed and the email lower-cased.
   */
  function FormatEmployeeData(data: EmployeeData, today: string, toIsoDate: string -> Option<string>): (r: Result<Formatted, string>)
    ensures data.salaryCents < 0 ==> r == Failure(SalaryError)
    ensures data.salaryCents >= 0 && data.dateOfJoining != "" && toIsoDate(data.dateOfJoining).None? ==> r == Failure(DateError)
    ensures r.Success? <==> data.salaryCents >= 0 && (data.dateOfJoining == "" || toIsoDate(data.dateOfJoining).Some?)
    ensures r.Success? ==>
      && Trimmed(r.value.firstName) && Trimmed(r.value.lastName) && Trimmed(r.value.department)
      && Trimmed(r.value.position) && Trimmed(r.value.email) && HasNoUpperAscii(r.value.email)
      && r.value.firstName == Trim(data.firstName) && r.value.lastName == Trim(data.lastName)
      && r.value.department == Trim(data.department) && r.value.position == Trim(data.position)
      && r.value.email == ToLower(Trim(data.email))
      && r.value.salaryCents == data.salaryCents
      && r.value.dateOfJoining == (if data.dateOfJoining == "" then today else toIsoDate(data.dateOfJoining).value)
  {
    if data.salaryCents < 0 then Failure(SalaryError)
    else if data.dateOfJoining != "" && toIsoDate(data.dateOfJoining).None? then Failure(DateError)
    else
      var dateStr := if data.dateOfJoining != "" then toIsoDate(data.dateOfJoining).value else today;
      ToLowerKeepsTrimmed(Trim(data.email));
      ToLowerProperties(Trim(data.email));
      Success(Formatted(
        Trim(data.firstName), Trim(data.lastName), ToLower(Trim(data.email)),
        Trim(data.department), Trim(data.position), data.salaryCents, dateStr))
  }

  /** The e-mail normalisation (trim, then lower-case) is idempotent. */
  lemma EmailNormalisationIdempotent(email: string)
    ensures ToLower(Trim(ToLower(Trim(email)))) == ToLower(Trim(email))
  {
    var t := Trim(email);
    ToLowerKeepsTrimmed(t);
    TrimOfTrimmed(ToLower(t));
    ToLowerProperties(t);
  }

  /** Formatting already formatted strings changes none of them. */
  lemma FormatIsIdempotent(data: EmployeeData, today: string, toIsoDate: string -> Option<string>)
    requires FormatEmployeeData(data, today, toIsoDate).Success?
    ensures var f := FormatEmployeeData(data, today, toIsoDate).value;
      var again := FormatEmployeeData(
        EmployeeData(f.firstName, f.lastName, f.department, f.position, f.salaryCents, "", f.email),
        today, toIsoDate).value;
      again.firstName == f.firstName && again.lastName == f.lastName && again.email == f.email
      && again.department == f.department && again.position == f.position
  {
    var f := FormatEmployeeData(data, today, toIsoDate).value;
    var d := EmployeeData(f.firstName, f.lastName, f.department, f.position, f.salaryCents, "", f.email);
    var again := FormatEmployeeData(d, today, toIsoDate).value;
    TrimOfTrimmed(f.firstName);
    TrimOfTrimmed(f.lastName);
    TrimOfTrimmed(f.department);
    TrimOfTrimmed(f.position);
    assert f.email == ToLower(Trim(data.email));
    EmailNormalisationIdempotent(data.email);
    assert again.email == ToLower(Trim(f.email));
  }

  /** The keys of the formatted object that the required-field check looks at. */
  datatype Field = FirstName | LastName | Email | Department | Position | Salary | DateOfJoining

  /** The key as written in the source. */
  function FieldName(field: Field): string
  {
    match field
    case FirstName => "firstName"
    case LastName => "lastName"
    case Email => "email"
    case Department => "department"
    case Position => "position"
    case Salary => "salary"
    case DateOfJoining => "dateOfJoining"
  }

  const RequiredFields: seq<Field> := [FirstName, LastName, Email, Department, Position, Salary, DateOfJoining]

  /** Position of a field in `RequiredFields`. */
  function Rank(field: Field): (n: nat)
    ensures n < |RequiredFields| && RequiredFields[n] == field
  {
    match field
    case FirstName => 0
    case LastName => 1
    case Email => 2
    case Department => 3
    case Position => 4
    case Salary => 5
    case DateOfJoining => 6
  }

  /** `!formattedData[field]`: the empty string and the number zero are falsy. */
  predicate IsMissing(f: Formatted, field: Field)
  {
    match field
    case FirstName => f.firstName == ""
    case LastName => f.lastName == ""
    case Email => f.email == ""
    case Department => f.department == ""
    case Position => f.position == ""
    case Salary => f.salaryCents == 0
    case DateOfJoining => f.dateOfJoining == ""
  }

  /** `fields.filter(field => !formattedData[field])`. */
  function Filter(f: Formatted, fields: seq<Field>): seq<Field>
  {
    if fields == [] then []
    else (if IsMissing(f, fields[0]) then [fields[0]] else []) + Filter(f, fields[1..])
  }

  lemma {:induction false} FilterMembers(f: Formatted, fields: seq<Field>)
    ensures forall n :: n in Filter(f, fields) <==> n in fields && IsMissing(f, n)
  {
    if fields != [] {
      FilterMembers(f, fields[1..]);
      assert forall n :: n in fields <==> n == fields[0] || n in fields[1..];
    }
  }

  predicate InFieldOrder(fields: seq<Field>)
  {
    forall i, j :: 0 <= i < j < |fields| ==> Rank(fields[i]) < Rank(fields[j])
  }

  lemma {:induction false} FilterKeepsOrder(f: Formatted, fields: seq<Field>)
    requires InFieldOrder(fields)
    ensures InFieldOrder(Filter(f, fields))
  {
    if fields != [] {
      FilterKeepsOrder(f, fields[1..]);
      FilterMembers(f, fields[1..]);
      var rest := Filter(f, fields[1..]);
      forall j | 0 <= j < |rest| ensures Rank(fields[0]) < Rank(rest[j]) {
        assert rest[j] in fields[1..];
      }
    }
  }

  /** `requiredFields.filter(field => !formattedData[field])`: the falsy fields, in the fixed order. */
  function MissingFields(f: Formatted): (r: seq<Field>)
    ensures forall n :: n in r <==> IsMissing(f, n)
    ensures InFieldOrder(r)
  {
    FilterMembers(f, RequiredFields);
    EveryFieldRequired();
    RequiredFieldsInOrder();
    FilterKeepsOrder(f, RequiredFields);
    Filter(f, RequiredFields)
  }

  lemma EveryFieldRequired()
    ensures forall n: Field :: n in RequiredFields
  {
    forall n: Field ensures n in RequiredFields {
      assert RequiredFields[Rank(n)] == n;
    }
  }

  lemma RequiredFieldsInOrder()
    ensures InFieldOrder(RequiredFields)
  {
    forall i, j | 0 <= i < j < |RequiredFields| ensures Rank(RequiredFields[i]) < Rank(RequiredFields[j]) {
      assert Rank(RequiredFields[i]) == i && Rank(RequiredFields[j]) == j;
    }
  }

  function FieldNames(fields: seq<Field>): (r: seq<string>)
    ensures |r| == |fields| && forall i :: 0 <= i < |fields| ==> r[i] == FieldName(fields[i])
  {
    if fields == [] then [] else [FieldName(fields[0])] + FieldNames(fields[1..])
  }

  /** `Required fields missing: ${missingFields.join(', ')}`. */
  function MissingFieldsError(missing: seq<Field>): string
  {
    MissingPrefix + Join(FieldNames(missing), ", ")
  }

  /** The checks `createEmployee` makes before sending: formatting, then the required fields. */
  function PrepareCreate(data: EmployeeData, today: string, toIsoDate: string -> Option<string>): (r: Result<Formatted, string>)
    ensures r.Success? ==> FormatEmployeeData(data, today, toIsoDate) == r && MissingFields(r.value) == []
    ensures r.Failure? && FormatEmployeeData(data, today, toIsoDate).Success? ==>
      r.error == MissingFieldsError(MissingFields(FormatEmployeeData(data, today, toIsoDate).value))
      && MissingFields(FormatEmployeeData(data, today, toIsoDate).value) != []
    ensures FormatEmployeeData(data, today, toIsoDate).Failure? ==> r == FormatEmployeeData(data, today, toIsoDate)
  {
    match FormatEmployeeData(data, today, toIsoDate)
    case Failure(e) => Failure(e)
    case Success(f) =>
      var missing := MissingFields(f);
      if |missing| > 0 then Failure(MissingFieldsError(missing)) else Success(f)
  }

  /** `updateEmployee`: the same checks, then `{ id, ...formattedData }`. */
  function PrepareUpdate(id: int, data: EmployeeData, today: string, toIsoDate: string -> Option<string>): (r: Result<UpdatePayload, string>)
    ensures r.Success? ==> r.value.id == id && PrepareCreate(data, today, toIsoDate) == Success(r.value.body)
    ensures r.Failure? <==> PrepareCreate(data, today, toIsoDate).Failure?
    ensures r.Failure? ==> r.error == PrepareCreate(data, today, toIsoDate).error
  {
    match PrepareCreate(data, today, toIsoDate)
    case Failure(e) => Failure(e)
    case Success(f) => Success(UpdatePayload(id, f))
  }

  /** A salary of zero passes the form schema and the salary check, yet is reported missing. */
  lemma ZeroSalaryReportedMissing(data: EmployeeData, today: string, toIsoDate: string -> Option<string>, id: int)
    requires data.salaryCents == 0
    requires FormatEmployeeData(data, today, toIsoDate).Success?
    ensures EmployeeSchema.SalaryIssues(data.salaryCents) == []
    ensures Salary in MissingFields(FormatEmployeeData(data, today, toIsoDate).value)
    ensures PrepareCreate(data, today, toIsoDate).Failure?
    ensures PrepareUpdate(id, data, today, toIsoDate).Failure?
  {
    var f := FormatEmployeeData(data, today, toIsoDate).value;
    assert IsMissing(f, Salary);
    assert Salary in MissingFields(f);
  }

  /** A whitespace-only first name trims to "" and is reported missing. */
  lemma WhitespaceNameReportedMissing(data: EmployeeData, today: string, toIsoDate: string -> Option<string>)
    requires AllWhitespace(data.firstName)
    requires FormatEmployeeData(data, today, toIsoDate).Success?
    ensures FirstName in MissingFields(FormatEmployeeData(data, today, toIsoDate).value)
    ensures PrepareCreate(data, today, toIsoDate).Failure?
  {
    TrimIsEmptyIffAllWhitespace(data.firstName);
  }

  /** With only the first name and the salary falsy, the message names exactly those two, in that order. */
  lemma MissingMessageExample(f: Formatted)
    requires f.firstName == "" && f.salaryCents == 0
    requires f.lastName != "" && f.email != "" && f.department != "" && f.position != "" && f.dateOfJoining != ""
    ensures MissingFields(f) == [FirstName, Salary]
    ensures MissingFieldsError(MissingFields(f)) == "Required fields missing: firstName, salary"
  {
    MissingFromTail(f);
    MissingMessageText();
  }

  lemma MissingMessageText()
    ensures MissingFieldsError([FirstName, Salary]) == "Required fields missing: firstName, salary"
  {
    var names := FieldNames([FirstName, Salary]);
    assert names == ["firstName", "salary"];
    assert Join(names, ", ") == "firstName" + ", " + "salary";
  }

  lemma MissingFromTail(f: Formatted)
    requires f.firstName == "" && f.salaryCents == 0
    requires f.lastName != "" && f.email != "" && f.department != "" && f.position != "" && f.dateOfJoining != ""
    ensures MissingFields(f) == [FirstName, Salary]
  {
    var fs := RequiredFields;
    assert Filter(f, fs[5..]) == [Salary] + Filter(f, fs[6..]);
    assert Filter(f, fs[6..]) == [] + Filter(f, fs[7..]) == [];
    assert Filter(f, fs[1..]) == Filter(f, fs[2..]) == Filter(f, fs[3..]) == Filter(f, fs[4..]) == Filter(f, fs[5..]);
    assert Filter(f, fs) == [FirstName] + Filter(f, fs[1..]);
  }

  /**
   * How ASP.NET binds an update payload: fields the payload lacks keep the
   * record's defaults (`PhoneNumber` "", `Status` "Active"); a date that is not
   * a real `yyyy-MM-dd` day fails binding.
   */
  function BindUpdatePayload(p: UpdatePayload): (r: Option<Employee>)
    ensures r.Some? ==> r.value.id == p.id && r.value.status == DefaultStatus && r.value.phoneNumber == ""
    ensures r.Some? <==> ParseDate(p.body.dateOfJoining).Some?
    ensures r.Some? ==>
      && r.value.firstName == p.body.firstName && r.value.lastName == p.body.lastName
      && r.value.email == p.body.email && r.value.department == p.body.department
      && r.value.position == p.body.position && r.value.salaryCents == p.body.salaryCents
      && r.value.dateOfJoining == ParseDate(p.body.dateOfJoining).value
  {
    match ParseDate(p.body.dateOfJoining)
    case None => None
    case Some(d) =>
      Some(Employee(p.id, p.body.firstName, p.body.lastName, p.body.department, p.body.position,
                    p.body.salaryCents, d, p.body.email, "", DefaultStatus))
  }

  /**
   * An update sent by the client never trips the server's id-mismatch check,
   * and, because the server replaces the whole row, it resets the stored
   * status to "Active" and the phone number to "".
   */
  lemma ClientUpdatePassesIdCheck(t: EmployeeStore.Table, id: int, data: EmployeeData, today: string,
                                  toIsoDate: string -> Option<string>)
    requires PrepareUpdate(id, data, today, toIsoDate).Success?
    requires BindUpdatePayload(PrepareUpdate(id, data, today, toIsoDate).value).Some?
    ensures var e := BindUpdatePayload(PrepareUpdate(id, data, today, toIsoDate).value).value;
      var r := EmployeeStore.Update(t, id, e);
      && !r.outcome.BadRequest?
      && (id in t.rows ==> r.outcome == EmployeeStore.NoContent
                           && r.table.rows[id].status == "Active" && r.table.rows[id].phoneNumber == "")
      && (id in t.rows ==> r.table.rows[id].firstName == Trim(data.firstName)
                           && r.table.rows[id].lastName == Trim(data.lastName)
                           && r.table.rows[id].email == ToLower(Trim(data.email))
                           && r.table.rows[id].department == Trim(data.department)
                           && r.table.rows[id].position == Trim(data.position)
                           && r.table.rows[id].salaryCents == data.salaryCents)
  {
  }

  /** The messages of one field in a validation response: an array, or a single value. */
  datatype Messages = Many(list: seq<string>) | One(text: string)

  datatype FieldErrors = FieldErrors(field: string, messages: Messages)

  function MessageList(m: Messages): seq<string>
  {
    match m
    case Many(xs) => xs
    case One(x) => [x]
  }

  /** `${field}: ${msgArray.join(', ')}`. */
  function ErrorLine(e: FieldErrors): string
  {
    e.field + ": " + Join(MessageList(e.messages), ", ")
  }

  function ErrorLines(errors: seq<FieldErrors>): (r: seq<string>)
    ensures |r| == |errors|
    ensures forall i :: 0 <= i < |errors| ==> r[i] == ErrorLine(errors[i])
  {
    if errors == [] then [] else [ErrorLine(errors[0])] + ErrorLines(errors[1..])
  }

  const ValidationPrefix := "Validation errors:\n"

  /** The message thrown for a server validation response. */
  function ValidationErrorsMessage(errors: seq<FieldErrors>): string
  {
    ValidationPrefix + Join(ErrorLines(errors), "\n")
  }

  /**
   * The message thrown for a failed request: the validation errors when the
   * response has an `errors` object (truthy even when empty), else the
   * response title when it is non-empty, else the fallback text.
   */
  function ServerErrorMessage(errors: Option<seq<FieldErrors>>, title: string, fallback: string): (m: string)
    ensures errors.Some? ==> m == ValidationErrorsMessage(errors.value)
    ensures errors.Some? ==> |m| >= |ValidationPrefix| && m[..|ValidationPrefix|] == ValidationPrefix
    ensures errors == Some([]) ==> m == ValidationPrefix
    ensures errors.None? ==> m == (if title != "" then title else fallback)
  {
    match errors
    case Some(es) => ValidationErrorsMessage(es)
    case None => if title != "" then title else fallback
  }

  /** A single message is formatted like an array holding just that message. */
  lemma SingleMessageAsList(field: string, m: string)
    ensures ErrorLine(FieldErrors(field, One(m))) == ErrorLine(FieldErrors(field, Many([m])))
    ensures ErrorLine(FieldErrors(field, One(m))) == field + ": " + m
  {
  }

  lemma {:induction false} CountInErrorLine(e: FieldErrors)
    requires Count('\n', e.field) == 0
    requires forall i :: 0 <= i < |MessageList(e.messages)| ==> Count('\n', MessageList(e.messages)[i]) == 0
    ensures Count('\n', ErrorLine(e)) == 0
  {
    CountFree('\n', ", ");
    CountInJoinFree('\n', MessageList(e.messages), ", ");
    CountFree('\n', ": ");
    CountAppend('\n', e.field, ": ");
    CountAppend('\n', e.field + ": ", Join(MessageList(e.messages), ", "));
  }

  /**
   * One line per field: when neither field names nor messages contain line
   * breaks, the message has exactly one line break per field with errors.
   */
  lemma OneLinePerField(errors: seq<FieldErrors>)
    requires |errors| > 0
    requires forall i :: 0 <= i < |errors| ==> Count('\n', errors[i].field) == 0
    requires forall i, j :: 0 <= i < |errors| && 0 <= j < |MessageList(errors[i].messages)| ==>
               Count('\n', MessageList(errors[i].messages)[j]) == 0
    ensures Count('\n', ValidationErrorsMessage(errors)) == |errors|
  {
    var lines := ErrorLines(errors);
    ErrorLinesHaveNoBreak(errors);
    assert Count('\n', "\n") == 1;
    CountInJoin('\n', lines, "\n");
    PrefixHasOneBreak();
    CountAppend('\n', ValidationPrefix, Join(lines, "\n"));
  }

  lemma PrefixHasOneBreak()
    ensures Count('\n', ValidationPrefix) == 1
  {
    CountFree('\n', "Validation errors:");
    CountAppend('\n', "Validation errors:", "\n");
    assert ValidationPrefix == "Validation errors:" + "\n";
  }

  lemma ErrorLinesHaveNoBreak(errors: seq<FieldErrors>)
    requires forall i :: 0 <= i < |errors| ==> Count('\n', errors[i].field) == 0
    requires forall i, j :: 0 <= i < |errors| && 0 <= j < |MessageList(errors[i].messages)| ==>
               Count('\n', MessageList(errors[i].messages)[j]) == 0
    ensures forall i :: 0 <= i < |errors| ==> Count('\n', ErrorLines(errors)[i]) == 0
  {
    forall i | 0 <= i < |errors| ensures Count('\n', ErrorLines(errors)[i]) == 0 {
      CountInErrorLine(errors[i]);
    }
  }
}

=== FILE: employee_schema.dfy ===
/**
 * The form schema of the employee pages. Each field runs all of its checks
 * on the raw value and reports an issue per failed check, in field order; a
 * string field that passes is trimmed, and a date that passes is read as
 * midnight UTC and written back by `toISOString`. Salary is in cents.
 */
module EmployeeSchema {
  import opened Wrappers
  import opened Text
  import opened Calendar

  datatype FormInput = FormInput(
    firstName: string, lastName: string, email: string,
    department: string, position: string, salaryCents: int, dateOfJoining: string)

  datatype Issue = Issue(path: string, message: string)

  datatype ParseResult =
    | Parsed(value: FormInput)
    | Rejected(issues: seq<Issue>)
    /** `toISOString` threw a RangeError on a well-shaped but impossible date. */
    | DateRangeError

  const MaxFieldLength := 50
  const MaxEmailLength := 100
  /** 1,000,000 in cents. */
  const MaxSalaryCents := 100000000
  const MidnightSuffix := "T00:00:00.000Z"

  /** `z.string().min(1, ...).max(50, ...)`, with the messages built from the field's caption. */
  function NameIssues(path: string, caption: string, raw: string): (r: seq<Issue>)
    ensures r == [] <==> 1 <= |raw| <= MaxFieldLength
    ensures |r| <= 1
    ensures AllAbout(r, path)
  {
    (if |raw| < 1 then [Issue(path, caption + " is required")] else [])
    + (if |raw| > MaxFieldLength then [Issue(path, caption + " must be less than 50 characters")] else [])
  }

  /** `.email(...)` (the parameter `isEmail`) and `.max(100, ...)`; both are checked. */
  function EmailIssues(raw: string, isEmail: string -> bool): (r: seq<Issue>)
    ensures r == [] <==> isEmail(raw) && |raw| <= MaxEmailLength
    ensures AllAbout(r, "email")
  {
    (if !isEmail(raw) then [Issue("email", "Invalid email format")] else [])
    + (if |raw| > MaxEmailLength then [Issue("email", "Email must be less than 100 characters")] else [])
  }

  /** `z.number().min(0, ...).max(1000000, ...)`: both bounds inclusive. */
  function SalaryIssues(cents: int): (r: seq<Issue>)
    ensures r == [] <==> 0 <= cents <= MaxSalaryCents
    ensures |r| <= 1
    ensures AllAbout(r, "salary")
  {
    (if cents < 0 then [Issue("salary", "Salary must be a positive number")] else [])
    + (if cents > MaxSalaryCents then [Issue("salary", "Salary must be less than 1,000,000")] else [])
  }

  /** `.regex(/^\d{4}-\d{2}-\d{2}$/, ...)`. */
  function DateIssues(raw: string): (r: seq<Issue>)
    ensures r == [] <==> IsIsoDateShape(raw)
    ensures AllAbout(r, "dateOfJoining")
  {
    if IsIsoDateShape(raw) then [] else [Issue("dateOfJoining", "Date must be in YYYY-MM-DD format")]
  }

  /** Every issue of the form, field after field in the schema's order. */
  function AllIssues(input: FormInput, isEmail: string -> bool): seq<Issue>
  {
    NameIssues("firstName", "First name", input.firstName)
    + NameIssues("lastName", "Last name", input.lastName)
    + EmailIssues(input.email, isEmail)
    + NameIssues("department", "Department", input.department)
    + NameIssues("position", "Position", input.position)
    + SalaryIssues(input.salaryCents)
    + DateIssues(input.dateOfJoining)
  }

  /**
   * `employeeSchema.parse`. `isEmail` is the e-mail pattern; `toIsoString` is
   * `new Date(d).toISOString()` of the JavaScript engine, `None` when it
   * throws a RangeError on an invalid date.
   */
  function Parse(input: FormInput, isEmail: string -> bool, toIsoString: string -> Option<string>): (r: ParseResult)
    ensures r.Parsed? <==>
      && 1 <= |input.firstName| <= MaxFieldLength && 1 <= |input.lastName| <= MaxFieldLength
      && 1 <= |input.department| <= MaxFieldLength && 1 <= |input.position| <= MaxFieldLength
      && isEmail(input.email) && |input.email| <= MaxEmailLength
      && 0 <= input.salaryCents <= MaxSalaryCents
      && IsIsoDateShape(input.dateOfJoining) && toIsoString(input.dateOfJoining + MidnightSuffix).Some?
    ensures r.Rejected? ==> r.issues != [] && r.issues == AllIssues(input, isEmail)
    ensures r == DateRangeError <==>
      IsIsoDateShape(input.dateOfJoining) && toIsoString(input.dateOfJoining + MidnightSuffix).None?
  {
    var issues := AllIssues(input, isEmail);
    var converted := toIsoString(input.dateOfJoining + MidnightSuffix);
    if IsIsoDateShape(input.dateOfJoining) && converted.None? then DateRangeError
    else if issues != [] then Rejected(issues)
    else Parsed(FormInput(
      Trim(input.firstName), Trim(input.lastName), Trim(input.email),
      Trim(input.department), Trim(input.position), input.salaryCents,
      converted.value))
  }

  /** What an accepted form becomes: trimmed strings, the same salary, and the engine's ISO text of midnight UTC on the given day. */
  lemma ParsedOutput(input: FormInput, isEmail: string -> bool, toIsoString: string -> Option<string>)
    requires Parse(input, isEmail, toIsoString).Parsed?
    ensures var out := Parse(input, isEmail, toIsoString).value;
      && out.firstName == Trim(input.firstName) && out.lastName == Trim(input.lastName)
      && out.email == Trim(input.email) && out.department == Trim(input.department)
      && out.position == Trim(input.position)
      && Trimmed(out.firstName) && Trimmed(out.lastName) && Trimmed(out.email)
      && Trimmed(out.department) && Trimmed(out.position)
      && out.salaryCents == input.salaryCents
      && IsIsoDateShape(input.dateOfJoining)
      && Some(out.dateOfJoining) == toIsoString(input.dateOfJoining + MidnightSuffix)
  {
  }

  /** Fifty characters are accepted, although the message says "less than 50"; fifty-one are not. */
  lemma FiftyCharactersAccepted(caption: string, raw: string)
    ensures |raw| == 50 ==> NameIssues("firstName", caption, raw) == []
    ensures |raw| == 51 ==> NameIssues("firstName", caption, raw)
                             == [Issue("firstName", caption + " must be less than 50 characters")]
  {
  }

  /** Length is checked before trimming: a whitespace-only name passes and becomes the empty string. */
  lemma WhitespaceNamePasses(raw: string)
    requires 1 <= |raw| <= MaxFieldLength && AllWhitespace(raw)
    ensures NameIssues("firstName", "First name", raw) == []
    ensures Trim(raw) == ""
  {
    TrimIsEmptyIffAllWhitespace(raw);
  }

  /** Both ends of the salary range are accepted. */
  lemma SalaryBoundsInclusive()
    ensures SalaryIssues(0) == [] && SalaryIssues(MaxSalaryCents) == []
    ensures SalaryIssues(-1) != [] && SalaryIssues(MaxSalaryCents + 1) != []
  {
  }

  /** The position of each field in the schema, the order its issues are reported in. */
  function FieldRank(path: string): (n: nat)
    ensures n <= 7
  {
    if path == "firstName" then 0
    else if path == "lastName" then 1
    else if path == "email" then 2
    else if path == "department" then 3
    else if path == "position" then 4
    else if path == "salary" then 5
    else if path == "dateOfJoining" then 6
    else 7
  }

  /** Every issue in `issues` is about the field `path`. */
  predicate AllAbout(issues: seq<Issue>, path: string)
  {
    forall k :: 0 <= k < |issues| ==> issues[k].path == path
  }

  /** The fields of `issues` never go back in the schema's order. */
  predicate InSchemaOrder(issues: seq<Issue>)
  {
    forall i, j :: 0 <= i < j < |issues| ==> FieldRank(issues[i].path) <= FieldRank(issues[j].path)
  }

  /** Every issue in `issues` is about a field no later than rank `n`. */
  predicate RanksAtMost(issues: seq<Issue>, n: nat)
  {
    forall k :: 0 <= k < |issues| ==> FieldRank(issues[k].path) <= n
  }

  /** Appending the issues of a later field keeps the order. */
  lemma AppendField(a: seq<Issue>, b: seq<Issue>, path: string)
    requires InSchemaOrder(a) && RanksAtMost(a, FieldRank(path)) && AllAbout(b, path)
    ensures InSchemaOrder(a + b) && RanksAtMost(a + b, FieldRank(path))
  {
    var c := a + b;
    forall i, j | 0 <= i < j < |c| ensures FieldRank(c[i].path) <= FieldRank(c[j].path) {
      if j >= |a| {
        assert c[j] == b[j - |a|];
        if i >= |a| {
          assert c[i] == b[i - |a|];
        }
      }
    }
  }

  /**
   * Issues are reported field by field in the schema's order (first name,
   * last name, e-mail, department, position, salary, date of joining), and
   * each is about one of those seven fields.
   */
  lemma IssuesInFieldOrder(input: FormInput, isEmail: string -> bool)
    ensures InSchemaOrder(AllIssues(input, isEmail))
    ensures forall k :: 0 <= k < |AllIssues(input, isEmail)| ==> FieldRank(AllIssues(input, isEmail)[k].path) < 7
  {
    var s0 := NameIssues("firstName", "First name", input.firstName);
    var s1 := s0 + NameIssues("lastName", "Last name", input.lastName);
    var s2 := s1 + EmailIssues(input.email, isEmail);
    var s3 := s2 + NameIssues("department", "Department", input.department);
    var s4 := s3 + NameIssues("position", "Position", input.position);
    var s5 := s4 + SalaryIssues(input.salaryCents);
    var s6 := s5 + DateIssues(input.dateOfJoining);
    AppendField([], s0, "firstName");
    assert [] + s0 == s0;
    AppendField(s0, NameIssues("lastName", "Last name", input.lastName), "lastName");
    AppendField(s1, EmailIssues(input.email, isEmail), "email");
    AppendField(s2, NameIssues("department", "Department", input.department), "department");
    AppendField(s3, NameIssues("position", "Position", input.position), "position");
    AppendField(s4, SalaryIssues(input.salaryCents), "salary");
    AppendField(s5, DateIssues(input.dateOfJoining), "dateOfJoining");
    assert s6 == AllIssues(input, isEmail);
  }

  /** The report's `yyyy-MM-dd` date cell has the shape this schema demands. */
  lemma ReportDateMatchesSchema(d: DateTime)
    ensures DateIssues(FormatDate(d)) == []
  {
  }
}

=== FILE: employee_store.dfy ===
/**
 * The employees controller over its table: list, get, create, update and
 * delete. The table is a map from key to row, the order in which the store
 * returns rows, and the next identity value. The functions below give the
 * meaning of each action; the class `EmployeesController` performs them in
 * place and is proved against them.
 */
module EmployeeStore {
  import opened Wrappers
  import opened Employees

  datatype Table = Table(rows: map<int, Employee>, order: seq<int>, nextId: int)

  /** The HTTP results the actions return. */
  datatype Outcome =
    | OkList(employees: seq<Employee>)
    | OkOne(employee: Employee)
    | Created(id: int, employee: Employee)
    | NoContent
    | BadRequest(message: string)
    | NotFound

  /** What `SaveChangesAsync` did with an insert: stored it, or raised `DbUpdateException`. */
  datatype SaveResult = Saved | DbUpdateFailed(innerMessage: Option<string>, message: string)

  datatype Step = Step(table: Table, outcome: Outcome)

  predicate NoDuplicates(s: seq<int>)
  {
    forall i, j :: 0 <= i < j < |s| ==> s[i] != s[j]
  }

  /**
   * Keys are identity values below the next one, each row carries its own key,
   * and the store order lists every key exactly once.
   */
  predicate Valid(t: Table)
  {
    && t.nextId >= 1
    && (forall k :: k in t.rows ==> 1 <= k < t.nextId && t.rows[k].id == k)
    && (forall i :: 0 <= i < |t.order| ==> t.order[i] in t.rows)
    && (forall k :: k in t.rows ==> k in t.order)
    && NoDuplicates(t.order)
  }

  const EmptyTable := Table(map[], [], 1)

  lemma EmptyTableValid()
    ensures Valid(EmptyTable)
  {
  }

  /** The rows named by `ids`, in that order. */
  function Project(rows: map<int, Employee>, ids: seq<int>): (r: seq<Employee>)
    requires forall i :: 0 <= i < |ids| ==> ids[i] in rows
    ensures |r| == |ids|
    ensures forall i :: 0 <= i < |ids| ==> r[i] == rows[ids[i]]
  {
    if ids == [] then [] else [rows[ids[0]]] + Project(rows, ids[1..])
  }

  /** `GetEmployees`: every stored row, in store order, and nothing else. */
  function List(t: Table): (r: seq<Employee>)
    requires Valid(t)
    ensures |r| == |t.order|
    ensures forall i :: 0 <= i < |r| ==> r[i] == t.rows[t.order[i]]
    ensures forall k :: k in t.rows ==> t.rows[k] in r
    ensures forall e :: e in r ==> e.id in t.rows && t.rows[e.id] == e
    ensures forall i, j :: 0 <= i < j < |r| ==> r[i].id != r[j].id
  {
    var r := Project(t.rows, t.order);
    assert forall k :: k in t.rows ==> t.rows[k] in r by {
      forall k | k in t.rows ensures t.rows[k] in r {
        var i :| 0 <= i < |t.order| && t.order[i] == k;
        assert r[i] == t.rows[k];
      }
    }
    r
  }

  /** `GetEmployee`: the stored row under `id`, or NotFound. */
  function Get(t: Table, id: int): (r: Outcome)
    ensures r.OkOne? || r == NotFound
    ensures r.OkOne? <==> id in t.rows
    ensures r.OkOne? ==> r.employee == t.rows[id]
  {
    if id in t.rows then OkOne(t.rows[id]) else NotFound
  }

  const NullPayloadMessage := "Employee data is required."
  const RequiredFieldsMessage := "FirstName, LastName, and Email are required fields."
  const CreateFailurePrefix := "Failed to create employee: "

  /**
   * The message of the `DbUpdateException` handler. In C#, `+` binds tighter
   * than `??`, so the expression is `(prefix + inner?.Message) ?? ex.Message`;
   * a string concatenation is never null, so `ex.Message` is never used, and a
   * missing inner exception contributes the empty string.
   */
  function CreateFailureMessage(innerMessage: Option<string>, message: string): (m: string)
    ensures |m| >= |CreateFailurePrefix| && m[..|CreateFailurePrefix|] == CreateFailurePrefix
    ensures m[|CreateFailurePrefix|..] == innerMessage.GetOr("")
  {
    CreateFailurePrefix + innerMessage.GetOr("")
  }

  /** The outer exception's message never reaches the client. */
  lemma CreateFailureIgnoresOuterMessage(inner: Option<string>, m1: string, m2: string)
    ensures CreateFailureMessage(inner, m1) == CreateFailureMessage(inner, m2)
    ensures CreateFailureMessage(None, m1) == CreateFailurePrefix
  {
  }

  /**
   * `PostEmployee`: a missing payload or an empty first name, last name or
   * email is rejected before anything is added; otherwise the row is stored
   * under the next identity value, unless the store rejects the insert.
   */
  function Create(t: Table, payload: Option<Employee>, save: SaveResult): (r: Step)
    ensures payload.None? ==> r == Step(t, BadRequest(NullPayloadMessage))
    ensures payload.Some? && !HasRequiredFields(payload.value) ==> r == Step(t, BadRequest(RequiredFieldsMessage))
    ensures r.outcome.BadRequest? ==> r.table == t
    ensures r.outcome.Created? <==> payload.Some? && HasRequiredFields(payload.value) && save == Saved
    ensures payload.Some? && HasRequiredFields(payload.value) && save.DbUpdateFailed? ==>
      r == Step(t, BadRequest(CreateFailureMessage(save.innerMessage, save.message)))
  {
    match payload
    case None => Step(t, BadRequest(NullPayloadMessage))
    case Some(e) =>
      if !HasRequiredFields(e) then Step(t, BadRequest(RequiredFieldsMessage))
      else match save
        case Saved =>
          var id := t.nextId;
          var stored := e.(id := id);
          Step(Table(t.rows[id := stored], t.order + [id], id + 1), Created(id, stored))
        case DbUpdateFailed(inner, message) =>
          Step(t, BadRequest(CreateFailureMessage(inner, message)))
  }

  /**
   * `PutEmployee`: a path id different from the body id is rejected without
   * touching the table; otherwise the whole row is replaced, or NotFound when
   * no row has that key.
   */
  function Update(t: Table, id: int, updated: Employee): (r: Step)
    ensures id != updated.id ==> r == Step(t, BadRequest("ID mismatch."))
    ensures r.outcome == NoContent <==> id == updated.id && id in t.rows
    ensures r.outcome == NotFound <==> id == updated.id && id !in t.rows
    ensures r.outcome != NoContent ==> r.table == t
  {
    if id != updated.id then Step(t, BadRequest("ID mismatch."))
    else if id !in t.rows then Step(t, NotFound)
    else Step(t.(rows := t.rows[id := updated]), NoContent)
  }

  /** `DeleteEmployee`: removes the row under `id`, or NotFound. */
  function Delete(t: Table, id: int): (r: Step)
    ensures r.outcome == NoContent || r.outcome == NotFound
    ensures r.outcome == NoContent <==> id in t.rows
    ensures r.outcome == NotFound ==> r.table == t
  {
    if id !in t.rows then Step(t, NotFound)
    else Step(Table(t.rows - {id}, Remove(t.order, id), t.nextId), NoContent)
  }

  /** `order` without the occurrences of `id`. */
  function Remove(order: seq<int>, id: int): (r: seq<int>)
    ensures forall x :: x in r <==> x in order && x != id
    ensures NoDuplicates(order) ==> NoDuplicates(r)
  {
    if order == [] then []
    else if order[0] == id then Remove(order[1..], id)
    else
      var rest := Remove(order[1..], id);
      assert forall x :: x in [order[0]] + rest <==> x in order && x != id by {
        assert forall x :: x in order <==> x == order[0] || x in order[1..];
      }
      assert NoDuplicates(order) ==> NoDuplicates([order[0]] + rest) by {
        if NoDuplicates(order) {
          assert order[0] !in order[1..];
        }
      }
      [order[0]] + rest
  }

  /** Removing a key that is not in the order changes nothing. */
  lemma {:induction false} RemoveAbsent(order: seq<int>, id: int)
    requires id !in order
    ensures Remove(order, id) == order
  {
    if order != [] {
      RemoveAbsent(order[1..], id);
      assert [order[0]] + order[1..] == order;
    }
  }

  /** In an order without duplicates, removing the key at position `k` cuts out exactly that entry, keeping the rest in order. */
  lemma {:induction false} RemoveAt(order: seq<int>, id: int, k: nat)
    requires NoDuplicates(order) && k < |order| && order[k] == id
    ensures Remove(order, id) == order[..k] + order[k + 1..]
  {
    if k == 0 {
      assert id !in order[1..] by {
        forall j | 0 <= j < |order[1..]| ensures order[1..][j] != id {
          assert order[1..][j] == order[j + 1];
        }
      }
      RemoveAbsent(order[1..], id);
    } else {
      assert order[0] != id;
      assert NoDuplicates(order[1..]) by {
        forall i, j | 0 <= i < j < |order[1..]| ensures order[1..][i] != order[1..][j] {
          assert order[1..][i] == order[i + 1] && order[1..][j] == order[j + 1];
        }
      }
      RemoveAt(order[1..], id, k - 1);
      assert order[..k] == [order[0]] + order[1..][..k - 1];
      assert order[k + 1..] == order[1..][k..];
    }
  }

  /** Deleting the row a create just stored gives back the rows and the order of before; only the identity value has moved on. */
  lemma CreateThenDeleteRestores(t: Table, e: Employee)
    requires Valid(t) && HasRequiredFields(e)
    ensures var c := Create(t, Some(e), Saved);
      c.outcome == Created(t.nextId, e.(id := t.nextId))
      && Delete(c.table, t.nextId) == Step(t.(nextId := t.nextId + 1), NoContent)
  {
    var id := t.nextId;
    assert id !in t.rows && id !in t.order;
    assert Create(t, Some(e), Saved).table == Table(t.rows[id := e.(id := id)], t.order + [id], id + 1);
    AppendThenRemove(t.order, id);
    assert t.rows[id := e.(id := id)] - {id} == t.rows;
  }

  /** Appending a fresh key and removing it again gives back the order. */
  lemma AppendThenRemove(order: seq<int>, id: int)
    requires NoDuplicates(order) && id !in order
    ensures Remove(order + [id], id) == order
  {
    var o := order + [id];
    assert NoDuplicates(o);
    RemoveAt(o, id, |order|);
    assert o[..|order|] == order && o[|order| + 1..] == [];
  }

  /** A successful create stores exactly one new row, under a key that was free, and keeps the table valid. */
  lemma CreateAddsOneFreshRow(t: Table, e: Employee)
    requires Valid(t) && HasRequiredFields(e)
    ensures var r := Create(t, Some(e), Saved);
      && r.outcome.Created?
      && r.outcome.id !in t.rows
      && r.table.rows.Keys == t.rows.Keys + {r.outcome.id}
      && (forall k :: k in t.rows ==> r.table.rows[k] == t.rows[k])
      && r.outcome.employee == e.(id := r.outcome.id)
      && Valid(r.table)
  {
    var r := Create(t, Some(e), Saved);
    var id := t.nextId;
    assert NoDuplicates(r.table.order) by {
      assert id !in t.order;
    }
    assert forall i :: 0 <= i < |r.table.order| ==> r.table.order[i] in r.table.rows by {
      forall i | 0 <= i < |r.table.order| ensures r.table.order[i] in r.table.rows {
        if i < |t.order| { assert r.table.order[i] == t.order[i]; }
      }
    }
  }

  /** Creating an employee and then getting it by the returned id returns the stored record. */
  lemma CreateThenGet(t: Table, e: Employee)
    requires Valid(t) && HasRequiredFields(e)
    ensures var r := Create(t, Some(e), Saved);
      r.outcome.Created? && Get(r.table, r.outcome.id) == OkOne(e.(id := r.outcome.id))
  {
  }

  /** The id of a created row is chosen by the table, whatever id the payload carried. */
  lemma CreateIgnoresPayloadId(t: Table, e1: Employee, e2: Employee)
    requires HasRequiredFields(e1) && e2 == e1.(id := e2.id)
    ensures Create(t, Some(e1), Saved) == Create(t, Some(e2), Saved)
  {
  }

  /** An update keeps the table valid and changes at most the addressed row. */
  lemma UpdateOnlyTouchesAddressedRow(t: Table, id: int, e: Employee)
    requires Valid(t)
    ensures var r := Update(t, id, e);
      && Valid(r.table)
      && r.table.rows.Keys == t.rows.Keys
      && r.table.order == t.order
      && (forall k :: k in t.rows && k != id ==> r.table.rows[k] == t.rows[k])
      && (r.outcome == NoContent ==> r.table.rows[id] == e)
  {
  }

  /** A delete keeps the table valid and removes exactly the addressed row. */
  lemma DeleteRemovesExactlyOneRow(t: Table, id: int)
    requires Valid(t)
    ensures var r := Delete(t, id);
      && Valid(r.table)
      && r.table.rows.Keys == t.rows.Keys - {id}
      && (forall k :: k in r.table.rows ==> r.table.rows[k] == t.rows[k])
  {
    var r := Delete(t, id);
    if id in t.rows {
      assert forall k :: k in r.table.rows ==> k in r.table.order;
      forall i | 0 <= i < |r.table.order| ensures r.table.order[i] in r.table.rows {
        var x := r.table.order[i];
        assert x in r.table.order;
        assert x in t.order && x != id;
      }
    }
  }

  /** Deleting the same id twice answers NoContent and then NotFound, and the row stays gone. */
  lemma DeleteTwice(t: Table, id: int)
    requires id in t.rows
    ensures var first := Delete(t, id);
      var second := Delete(first.table, id);
      first.outcome == NoContent && second.outcome == NotFound
      && second.table == first.table
      && Get(second.table, id) == NotFound
  {
  }

  /** After a successful delete, reading the row back is NotFound. */
  lemma DeleteThenGet(t: Table, id: int)
    requires id in t.rows
    ensures Get(Delete(t, id).table, id) == NotFound
  {
  }

  /**
   * The controller over a live table. The fields are the table's parts; each
   * action leaves the fields as the corresponding function says.
   */
  class EmployeesController {
    var rows: map<int, Employee>
    var order: seq<int>
    var nextId: int

    function Model(): Table
      reads this
    {
      Table(rows, order, nextId)
    }

    constructor ()
      ensures Model() == EmptyTable && Valid(Model())
    {
      rows, order, nextId := map[], [], 1;
    }

    method GetEmployees() returns (out: Outcome)
      requires Valid(Model())
      ensures out == OkList(List(Model()))
    {
      out := OkList(Project(rows, order));
    }

    method GetEmployee(id: int) returns (out: Outcome)
      ensures out == Get(Model(), id)
    {
      if id !in rows {
        return NotFound;
      }
      out := OkOne(rows[id]);
    }

    method PostEmployee(payload: Option<Employee>, save: SaveResult) returns (out: Outcome)
      requires Valid(Model())
      modifies this
      ensures Valid(Model())
      ensures Step(Model(), out) == Create(old(Model()), payload, save)
    {
      if payload.None? {
        return BadRequest(NullPayloadMessage);
      }
      var employee := payload.value;
      if employee.firstName == "" || employee.lastName == "" || employee.email == "" {
        return BadRequest(RequiredFieldsMessage);
      }
      match save {
        case Saved =>
          CreateAddsOneFreshRow(Model(), employee);
          employee := employee.(id := nextId);
          rows := rows[nextId := employee];
          order := order + [nextId];
          nextId := nextId + 1;
          out := Created(employee.id, employee);
        case DbUpdateFailed(inner, message) =>
          out := BadRequest(CreateFailurePrefix + inner.GetOr(""));
      }
    }

    method PutEmployee(id: int, updatedEmployee: Employee) returns (out: Outcome)
      requires Valid(Model())
      modifies this
      ensures Valid(Model())
      ensures Step(Model(), out) == Update(old(Model()), id, updatedEmployee)
    {
      if id != updatedEmployee.id {
        return BadRequest("ID mismatch.");
      }
      if id !in rows {
        return NotFound;
      }
      UpdateOnlyTouchesAddressedRow(Model(), id, updatedEmployee);
      rows := rows[id := updatedEmployee];
      out := NoContent;
    }

    method DeleteEmployee(id: int) returns (out: Outcome)
      requires Valid(Model())
      modifies this
      ensures Valid(Model())
      ensures Step(Model(), out) == Delete(old(Model()), id)
    {
      if id !in rows {
        return NotFound;
      }
      DeleteRemovesExactlyOneRow(Model(), id);
      rows := rows - {id};
      order := Remove(order, id);
      out := NoContent;
    }
  }

  /**
   * Creating, reading, deleting and reading again against the controller:
   * Created, the stored record, NoContent, then NotFound for the read and for
   * a second delete; afterwards the rows and their order are as before and
   * only the identity value has moved on.
   */
  method CreateReadDeleteScenario(c: EmployeesController, e: Employee)
      returns (created: Outcome, fetched: Outcome, deleted: Outcome, again: Outcome, deletedAgain: Outcome)
    requires Valid(c.Model()) && HasRequiredFields(e)
    modifies c
    ensures created == Created(old(c.nextId), e.(id := old(c.nextId)))
    ensures fetched == OkOne(e.(id := old(c.nextId)))
    ensures deleted == NoContent && again == NotFound && deletedAgain == NotFound
    ensures c.rows == old(c.rows) && c.order == old(c.order) && c.nextId == old(c.nextId) + 1
    ensures Valid(c.Model())
  {
    CreateThenDeleteRestores(c.Model(), e);
    created := c.PostEmployee(Some(e), Saved);
    var id := created.id;
    fetched := c.GetEmployee(id);
    deleted := c.DeleteEmployee(id);
    again := c.GetEmployee(id);
    deletedAgain := c.DeleteEmployee(id);
  }
}

=== FILE: reports.dfy ===
/**
 * The PDF report: a title line, a nine-column header and nine body cells per
 * employee in the order the store returns them. Rendering is not modelled;
 * the report is the text of its cells, its MIME type and its file name.
 */
module Reports {
  import opened Wrappers
  import opened Text
  import opened Calendar
  import opened Employees
  import EmployeeStore

  const HeaderLabels: seq<string> :=
    ["ID", "First Name", "Last Name", "Email", "Department", "Position", "Salary", "Date of Joining", "Status"]

  const ColumnCount := 9
  const PdfMime := "application/pdf"
  const TitlePrefix := "Employees Report - Generated on "
  const FileNamePrefix := "Employees_Report_"
  const FileNameSuffix := ".pdf"

  datatype Report = Report(title: string, header: seq<string>, body: seq<string>, mime: string, fileName: string)

  /** `Int32.ToString()`. */
  function IdText(id: int): string
  {
    if id < 0 then "-" + NatText(-id) else NatText(id)
  }

  /**
   * The nine body cells of one employee, in column order. `currency` is the
   * culture-dependent `ToString("C")` of the salary in cents.
   */
  function RowCells(e: Employee, currency: int -> string): (r: seq<string>)
    ensures |r| == ColumnCount
  {
    [IdText(e.id), e.firstName, e.lastName, e.email, e.department, e.position,
     currency(e.salaryCents), FormatDate(e.dateOfJoining), e.status]
  }

  /** The body of the table: the rows of `employees` one after another. */
  function BodyCells(employees: seq<Employee>, currency: int -> string): seq<string>
  {
    if employees == [] then [] else RowCells(employees[0], currency) + BodyCells(employees[1..], currency)
  }

  /**
   * `$"Employees Report - Generated on {DateTime.UtcNow:yyyy-MM-dd HH:mm:ss}"`:
   * the fixed prefix, then a stamp that reads back as exactly `utcNow`.
   */
  function ReportTitle(utcNow: DateTime): (s: string)
    ensures |s| == |TitlePrefix| + 19 && s[..|TitlePrefix|] == TitlePrefix
    ensures ParseLongStamp(s[|TitlePrefix|..]) == Some(utcNow)
  {
    LongStampRoundTrip(utcNow);
    var s := TitlePrefix + FormatLongStamp(utcNow);
    assert s[|TitlePrefix|..] == FormatLongStamp(utcNow);
    s
  }

  /**
   * `$"Employees_Report_{DateTime.UtcNow:yyyyMMddHHmmss}.pdf"`: the fixed
   * prefix, fourteen digits that read back as exactly `utcNow`, the suffix.
   */
  function ReportFileName(utcNow: DateTime): (s: string)
    ensures |s| == |FileNamePrefix| + 14 + |FileNameSuffix|
    ensures s[..|FileNamePrefix|] == FileNamePrefix
    ensures AllDigits(s[|FileNamePrefix|..|FileNamePrefix| + 14])
    ensures ParseCompactStamp(s[|FileNamePrefix|..|FileNamePrefix| + 14]) == Some(utcNow)
    ensures s[|FileNamePrefix| + 14..] == FileNameSuffix
  {
    CompactStampRoundTrip(utcNow);
    var s := FileNamePrefix + FormatCompactStamp(utcNow) + FileNameSuffix;
    assert s[|FileNamePrefix|..|FileNamePrefix| + 14] == FormatCompactStamp(utcNow);
    s
  }

  lemma {:induction false} BodyCellsAppend(es: seq<Employee>, e: Employee, currency: int -> string)
    ensures BodyCells(es + [e], currency) == BodyCells(es, currency) + RowCells(e, currency)
  {
    if es == [] {
      assert es + [e] == [e];
    } else {
      assert (es + [e])[1..] == es[1..] + [e];
      BodyCellsAppend(es[1..], e, currency);
    }
  }

  /** The body has nine cells per employee. */
  lemma {:induction false} BodyCellsLength(es: seq<Employee>, currency: int -> string)
    ensures |BodyCells(es, currency)| == ColumnCount * |es|
  {
    if es != [] {
      BodyCellsLength(es[1..], currency);
    }
  }

  /** Cell `j` of row `i` is cell `j` of the `i`-th employee: rows follow the store order. */
  lemma {:induction false} BodyCellAt(es: seq<Employee>, currency: int -> string, i: nat, j: nat)
    requires i < |es| && j < ColumnCount
    ensures |BodyCells(es, currency)| == ColumnCount * |es|
    ensures BodyCells(es, currency)[ColumnCount * i + j] == RowCells(es[i], currency)[j]
  {
    BodyCellsLength(es, currency);
    if i > 0 {
      BodyCellAt(es[1..], currency, i - 1, j);
    }
  }

  /** The cells of a row, named: the columns come in the header's order. */
  lemma RowCellsOrder(e: Employee, currency: int -> string)
    ensures var r := RowCells(e, currency);
      && r[0] == IdText(e.id) && r[1] == e.firstName && r[2] == e.lastName
      && r[3] == e.email && r[4] == e.department && r[5] == e.position
      && r[6] == currency(e.salaryCents) && r[7] == FormatDate(e.dateOfJoining) && r[8] == e.status
      && IsIsoDateShape(r[7])
      && |HeaderLabels| == |r|
  {
  }

  /** The Id cell is the decimal numeral of a stored key. */
  lemma IdCellRoundTrip(id: int)
    requires id >= 1
    ensures AllDigits(IdText(id)) && ValueOf(IdText(id)) == id
  {
    NatTextRoundTrip(id);
  }

  /**
   * `GeneratePdfReportAsync`: the header cells, then the cells of each
   * employee; the title and the file name each read the clock once.
   */
  method GeneratePdfReport(employees: seq<Employee>, titleTime: DateTime, fileTime: DateTime, currency: int -> string)
    returns (report: Report)
    ensures report.header == HeaderLabels
    ensures report.body == BodyCells(employees, currency)
    ensures report.title == ReportTitle(titleTime)
    ensures report.mime == PdfMime && report.fileName == ReportFileName(fileTime)
  {
    var title := ReportTitle(titleTime);
    var header: seq<string> := [];
    for k := 0 to |HeaderLabels|
      invariant header == HeaderLabels[..k]
    {
      header := header + [HeaderLabels[k]];
    }
    var body: seq<string> := [];
    for i := 0 to |employees|
      invariant body == BodyCells(employees[..i], currency)
    {
      var e := employees[i];
      BodyCellsAppend(employees[..i], e, currency);
      assert employees[..i + 1] == employees[..i] + [e];
      var cells := [IdText(e.id), e.firstName, e.lastName, e.email, e.department, e.position,
                    currency(e.salaryCents), FormatDate(e.dateOfJoining), e.status];
      body := body + cells;
    }
    assert employees[..|employees|] == employees;
    report := Report(title, header, body, PdfMime, ReportFileName(fileTime));
  }

  /** An empty store yields a report with the title and header and no body cells. */
  lemma EmptyStoreReport(currency: int -> string)
    ensures BodyCells(EmployeeStore.List(EmployeeStore.EmptyTable), currency) == []
  {
  }

  /** Row `i` of the body is the nine cells of the `i`-th employee. */
  lemma RowAt(es: seq<Employee>, currency: int -> string, i: nat)
    requires i < |es|
    ensures |BodyCells(es, currency)| == ColumnCount * |es|
    ensures forall j :: 0 <= j < ColumnCount ==>
      BodyCells(es, currency)[ColumnCount * i + j] == RowCells(es[i], currency)[j]
  {
    BodyCellsLength(es, currency);
    forall j | 0 <= j < ColumnCount
      ensures BodyCells(es, currency)[ColumnCount * i + j] == RowCells(es[i], currency)[j]
    {
      BodyCellAt(es, currency, i, j);
    }
  }

  /**
   * The report of a store reads every row, unfiltered: nine cells per stored
   * employee, and row `i` is the `i`-th employee in listing order, cell by cell.
   */
  lemma StoreReportCoversEveryRow(t: EmployeeStore.Table, currency: int -> string, i: nat)
    requires EmployeeStore.Valid(t) && i < |t.order|
    ensures |BodyCells(EmployeeStore.List(t), currency)| == ColumnCount * |t.order|
    ensures forall j :: 0 <= j < ColumnCount ==>
      BodyCells(EmployeeStore.List(t), currency)[ColumnCount * i + j] == RowCells(t.rows[t.order[i]], currency)[j]
  {
    RowAt(EmployeeStore.List(t), currency, i);
  }
}

=== FILE: text.dfy ===
/**
 * String helpers shared by the client and the server models: the JavaScript
 * notion of whitespace and `String.prototype.trim`, ASCII lower-casing,
 * `Array.prototype.join`, and fixed-width decimal digits.
 */
module Text {

  /** WhiteSpace and LineTerminator code points of ECMAScript, the set `trim` removes. */
  predicate IsJsWhitespace(c: char)
  {
    || c == '\t' || c == '\n' || c == '\U{000B}' || c == '\U{000C}' || c == '\r'
    || c == ' ' || c == '\U{00A0}' || c == '\U{1680}'
    || ('\U{2000}' <= c <= '\U{200A}')
    || c == '\U{2028}' || c == '\U{2029}' || c == '\U{202F}' || c == '\U{205F}'
    || c == '\U{3000}' || c == '\U{FEFF}'
  }

  predicate AllWhitespace(s: string)
  {
    forall i :: 0 <= i < |s| ==> IsJsWhitespace(s[i])
  }

  /** A string that `trim` leaves alone: no whitespace at either end. */
  predicate Trimmed(s: string)
  {
    s == [] || (!IsJsWhitespace(s[0]) && !IsJsWhitespace(s[|s| - 1]))
  }

  /** Every character of `s[lo..hi]` is whitespace. */
  predicate WhitespaceIn(s: string, lo: int, hi: int)
    requires 0 <= lo <= hi <= |s|
  {
    forall k :: lo <= k < hi ==> IsJsWhitespace(s[k])
  }

  /** `r` occurs in `s` starting at index `i`. */
  predicate SliceAt(s: string, i: int, r: string)
  {
    0 <= i && i + |r| <= |s| && r == s[i..i + |r|]
  }

  /** Drops leading whitespace; the result is a suffix of `s` and everything dropped is whitespace. */
  function TrimStart(s: string): (r: string)
    ensures |r| <= |s| && r == s[|s| - |r|..]
    ensures WhitespaceIn(s, 0, |s| - |r|)
    ensures r == [] || !IsJsWhitespace(r[0])
  {
    if |s| > 0 && IsJsWhitespace(s[0]) then
      var r := TrimStart(s[1..]);
      assert forall k :: 1 <= k < |s| - |r| ==> s[k] == s[1..][k - 1];
      r
    else s
  }

  /** Drops trailing whitespace; the result is a prefix of `s` and everything dropped is whitespace. */
  function TrimEnd(s: string): (r: string)
    ensures |r| <= |s| && r == s[..|r|]
    ensures WhitespaceIn(s, |r|, |s|)
    ensures r == [] || !IsJsWhitespace(r[|r| - 1])
  {
    if |s| > 0 && IsJsWhitespace(s[|s| - 1]) then
      var r := TrimEnd(s[..|s| - 1]);
      assert forall k :: |r| <= k < |s| - 1 ==> s[k] == s[..|s| - 1][k];
      r
    else s
  }

  /** The number of whitespace characters at the start of `s`, the ones `trim` drops there. */
  function LeadingSpace(s: string): (i: nat)
    ensures i <= |s| && WhitespaceIn(s, 0, i)
  {
    |s| - |TrimStart(s)|
  }

  /**
   * `String.prototype.trim`: the slice of `s` after its leading whitespace, with
   * only whitespace after it, neither starting nor ending with whitespace.
   */
  function Trim(s: string): (r: string)
    ensures Trimmed(r)
    ensures SliceAt(s, LeadingSpace(s), r)
    ensures WhitespaceIn(s, LeadingSpace(s) + |r|, |s|)
  {
    var t := TrimStart(s);
    TrimIsSlice(s, t, TrimEnd(t));
    TrimDropsTrailingSpace(s, t, TrimEnd(t));
    TrimLeavesTrimmed(t, TrimEnd(t));
    TrimEnd(t)
  }

  /** What survives `trim` sits right after the leading whitespace. */
  lemma TrimIsSlice(s: string, t: string, r: string)
    requires t == TrimStart(s) && r == TrimEnd(t)
    ensures SliceAt(s, LeadingSpace(s), r)
  {
    SliceOfSlice(s, t, r, |s| - |t|);
  }

  /** Everything `trim` drops after the kept slice is whitespace. */
  lemma TrimDropsTrailingSpace(s: string, t: string, r: string)
    requires t == TrimStart(s) && r == TrimEnd(t)
    ensures WhitespaceIn(s, LeadingSpace(s) + |r|, |s|)
  {
    WhitespaceShift(s, |s| - |t|, |r|, |t|);
  }

  /** The result of `trim` neither starts nor ends with whitespace. */
  lemma TrimLeavesTrimmed(t: string, r: string)
    requires t == [] || !IsJsWhitespace(t[0])
    requires r == TrimEnd(t)
    ensures Trimmed(r)
  {
    assert r != [] ==> r[0] == t[0];
  }

  /** A prefix of a suffix is a slice. */
  lemma SliceOfSlice(s: string, t: string, r: string, i: nat)
    requires i <= |s| && t == s[i..] && |r| <= |t| && r == t[..|r|]
    ensures SliceAt(s, i, r)
  {
  }

  /** Whitespace in `s[i..][lo..hi]` is whitespace in `s[i + lo..i + hi]`. */
  lemma WhitespaceShift(s: string, i: nat, lo: nat, hi: nat)
    requires i <= |s| && lo <= hi <= |s| - i
    requires WhitespaceIn(s[i..], lo, hi)
    ensures WhitespaceIn(s, i + lo, i + hi)
  {
    forall k | i + lo <= k < i + hi ensures IsJsWhitespace(s[k]) {
      assert s[k] == s[i..][k - i];
    }
  }

  /** A string without whitespace at its ends is its own trim. */
  lemma TrimOfTrimmed(s: string)
    requires Trimmed(s)
    ensures Trim(s) == s
  {
  }

  /** Trimming twice is trimming once. */
  lemma TrimIdempotent(s: string)
    ensures Trim(Trim(s)) == Trim(s)
  {
    TrimOfTrimmed(Trim(s));
  }

  /** `trim` yields the empty string exactly when the input is whitespace only. */
  lemma TrimIsEmptyIffAllWhitespace(s: string)
    ensures Trim(s) == [] <==> AllWhitespace(s)
  {
  }

  /** ASCII upper-case letters mapped to lower case; every other character unchanged. */
  function LowerChar(c: char): char
  {
    if 'A' <= c <= 'Z' then (c as int + 32) as char else c
  }

  /** `String.prototype.toLowerCase`, restricted to the ASCII letters. */
  function ToLower(s: string): (r: string)
    ensures |r| == |s|
    ensures forall i :: 0 <= i < |s| ==> r[i] == LowerChar(s[i])
  {
    if s == [] then [] else [LowerChar(s[0])] + ToLower(s[1..])
  }

  predicate HasNoUpperAscii(s: string)
  {
    forall i :: 0 <= i < |s| ==> !('A' <= s[i] <= 'Z')
  }

  /** Lower-casing leaves no upper-case letter, keeps whitespace where it was, and is idempotent. */
  lemma ToLowerProperties(s: string)
    ensures HasNoUpperAscii(ToLower(s))
    ensures forall i :: 0 <= i < |s| ==> (IsJsWhitespace(ToLower(s)[i]) <==> IsJsWhitespace(s[i]))
    ensures ToLower(ToLower(s)) == ToLower(s)
    ensures ToLower(s) == [] <==> s == []
  {
  }

  /** Lower-casing a trimmed string gives a trimmed string. */
  lemma ToLowerKeepsTrimmed(s: string)
    requires Trimmed(s)
    ensures Trimmed(ToLower(s))
  {
    ToLowerProperties(s);
  }

  /** `Array.prototype.join(sep)` over strings. */
  function Join(xs: seq<string>, sep: string): string
  {
    if |xs| == 0 then ""
    else if |xs| == 1 then xs[0]
    else xs[0] + sep + Join(xs[1..], sep)
  }

  /** Number of occurrences of `c` in `s`. */
  function Count(c: char, s: string): nat
  {
    if s == [] then 0 else (if s[0] == c then 1 else 0) + Count(c, s[1..])
  }

  lemma {:induction false} CountFree(c: char, s: string)
    requires forall i :: 0 <= i < |s| ==> s[i] != c
    ensures Count(c, s) == 0
  {
    if s != [] {
      CountFree(c, s[1..]);
    }
  }

  lemma {:induction false} CountAppend(c: char, a: string, b: string)
    ensures Count(c, a + b) == Count(c, a) + Count(c, b)
  {
    if a == [] {
      assert a + b == b;
    } else {
      assert (a + b)[1..] == a[1..] + b;
      CountAppend(c, a[1..], b);
    }
  }

  /**
   * Joining `n` strings that do not contain `c` with a separator holding `c` once
   * yields exactly `n - 1` occurrences of `c`.
   */
  lemma {:induction false} CountInJoin(c: char, xs: seq<string>, sep: string)
    requires |xs| > 0
    requires Count(c, sep) == 1
    requires forall i :: 0 <= i < |xs| ==> Count(c, xs[i]) == 0
    ensures Count(c, Join(xs, sep)) == |xs| - 1
  {
    if |xs| > 1 {
      CountInJoin(c, xs[1..], sep);
      CountAppend(c, xs[0], sep);
      CountAppend(c, xs[0] + sep, Join(xs[1..], sep));
    }
  }

  /** Joining strings free of `c` with a separator free of `c` gives a string free of `c`. */
  lemma {:induction false} CountInJoinFree(c: char, xs: seq<string>, sep: string)
    requires Count(c, sep) == 0
    requires forall i :: 0 <= i < |xs| ==> Count(c, xs[i]) == 0
    ensures Count(c, Join(xs, sep)) == 0
  {
    if |xs| > 1 {
      CountInJoinFree(c, xs[1..], sep);
      CountAppend(c, xs[0], sep);
      CountAppend(c, xs[0] + sep, Join(xs[1..], sep));
    }
  }

  predicate IsDigit(c: char)
  {
    '0' <= c <= '9'
  }

  predicate AllDigits(s: string)
  {
    forall i :: 0 <= i < |s| ==> IsDigit(s[i])
  }

  function DigitChar(d: nat): (c: char)
    requires d < 10
    ensures IsDigit(c)
  {
    ('0' as int + d) as char
  }

  function DigitValue(c: char): (d: nat)
    requires IsDigit(c)
    ensures d < 10
  {
    c as int - '0' as int
  }

  function Pow10(w: nat): (p: nat)
    ensures p >= 1
  {
    if w == 0 then 1 else 10 * Pow10(w - 1)
  }

  /** The last `width` decimal digits of `n`, zero-padded on the left (a .NET `yyyy`/`MM` field). */
  function Digits(n: nat, width: nat): (s: string)
    ensures |s| == width && AllDigits(s)
  {
    if width == 0 then [] else Digits(n / 10, width - 1) + [DigitChar(n % 10)]
  }

  /** The number a string of decimal digits denotes. */
  function ValueOf(s: string): nat
    requires AllDigits(s)
  {
    if s == [] then 0 else 10 * ValueOf(s[..|s| - 1]) + DigitValue(s[|s| - 1])
  }

  /** Reading back the digits written by `Digits` gives the number, when it fits the width. */
  lemma {:induction false} ValueOfDigits(n: nat, width: nat)
    requires n < Pow10(width)
    ensures ValueOf(Digits(n, width)) == n
  {
    if width > 0 {
      var s := Digits(n, width);
      assert s[..|s| - 1] == Digits(n / 10, width - 1);
      ValueOfDigits(n / 10, width - 1);
    }
  }

  /** The decimal numeral of `n` with no leading zeros (`Int32.ToString()` of a non-negative value). */
  function NatText(n: nat): (s: string)
    ensures |s| >= 1 && AllDigits(s)
  {
    if n < 10 then [DigitChar(n)] else NatText(n / 10) + [DigitChar(n % 10)]
  }

  /** `NatText` is a faithful numeral: reading it back gives the number, and it has no leading zero. */
  lemma {:induction false} NatTextRoundTrip(n: nat)
    ensures ValueOf(NatText(n)) == n
    ensures NatText(n)[0] == '0' ==> n == 0
  {
    var s := NatText(n);
    if n >= 10 {
      assert s[..|s| - 1] == NatText(n / 10);
      NatTextRoundTrip(n / 10);
    }
  }
}

=== FILE: wrappers.dfy ===
/** Option and Result values used for the error paths of the model. */
module Wrappers {

  datatype Option<+T> = None | Some(value: T) {
    function GetOr(default: T): T {
      match this
      case Some(v) => v
      case None => default
    }
  }

  datatype Result<+R, +E> = Success(value: R) | Failure(error: E)
}
